=== FILE: README.md ===
# Drift velocity: a Dafny model of the particle engine

`drift_velocity_sdl.c` is an SDL program. Blue "electrons" move in an 800 × 600 arena and
wrap around at its edges; red "ions" move only when a collision pushes them, and are never wrapped. Each
overlapping electron–electron or electron–ion pair gets a damped collision response. A control panel has three
sliders (maximum speed, collision damping, number of active electrons) and a reset button.

This project models the program's engine and its parameter state machine, and proves properties of them:

- `handleCollision`: the contact geometry, the exchange of damped normal components, and the push that
  separates the two disks.
- `moveParticles`: integration, wrap-around, and the order of the pairwise collision calls.
- `initializeParticles`, `initializeSliders`, `updateSliders`, `isMouseOverButton` and `handleResetButton`.
- The divisor `numElectrons` of `calculateAverageVelocity`.
- The constants and globals these functions share.

The model is organised into these modules:

- `Config`: the build-time constants.
- `Numerics`: C truncation, `fmodf`, `fminf`/`fmaxf`, and the relation that `sqrt` satisfies.
- `Particles`: the particle record and the two arrays.
- `Collision`: `handleCollision`.
- `Motion`: integration and wrap-around.
- `Schedule`: the sequence of calls that one `moveParticles` makes.
- `Step`: that sequence applied to the particle arrays, and the `moveParticles` loops as a method.
- `Controls`: sliders, hit test and parameters.
- `Simulation`: initialisation, the event handlers, one frame, and the average's divisor.

Floats are modelled as reals. The C code computes `cos(atan2(dy, dx))` and `sin(atan2(dy, dx))`. The model
uses the equal values `dx / d` and `dy / d` instead, and `(1, 0)` when the centres coincide (`atan2(0, 0)`
is 0). `sqrt` is a parameter, constrained only to be a nonnegative square root. The values of `rand()` are
a parameter: a sequence of numbers in `[0, RAND_MAX]`, with `RAND_MAX` taken as glibc's `2^31 - 1`.

Some of the code's behaviour is easy to misread; the model follows the code:

- Each particle is pushed by the whole of `overlap = (r1 + r2 - d) / 2`, so the two centres end exactly
  `r1 + r2` apart. They are not pushed by half of it.
- Ions do move. The push changes an ion's position, and the velocity exchange gives the ion a velocity.
  That velocity is never integrated, because only electrons are integrated.
- The wrap keeps an electron inside the arena only at the moment of wrapping. A collision later in the same
  iteration can push the electron out again (`Collision.CollisionLeavesArena`).
- A coordinate more than one arena width below zero stays negative after the wrap (`Motion.WrapFarLeft`).
- `updateSliders` reads the mouse position through `e->button` for motion events too. For
  `SDL_MouseMotionEvent` those fields lie at the same offsets as its own `x` and `y`, so the model's events
  carry one position.

## Model

| member | source | states |
|---|---|---|
| Numerics.Trunc | drift_velocity_sdl.c:263 | the float-to-int conversion drops the fraction toward zero: the result is within 1 of the value, on the side of zero |
| Numerics.FMod | drift_velocity_sdl.c:140-141 | `fmodf` keeps the sign of the dividend, has magnitude below the divisor, and differs from the dividend by a whole number of divisors |
| Numerics.Clamp | drift_velocity_sdl.c:259 | `fmaxf(min, fminf(max, v))` lies in `[min, max]`, leaves in-range values unchanged, and sends values below or above to the nearer end |
| Collision.ContactOf | drift_velocity_sdl.c:104-111 | the distance and direction form a polar decomposition of the offset: `d >= 0`, `(dx, dy) == d * (c, s)`, `c^2 + s^2 == 1`, `d^2 == dx^2 + dy^2`, and `(c, s) == (1, 0)` for coincident centres |
| Collision.HandleCollision | drift_velocity_sdl.c:103-133 | when `d >= r1 + r2` nothing changes; in every case radii and colours are kept, and so are the sums `x1 + x2` and `y1 + y2` |
| Collision.CollidePair | drift_velocity_sdl.c:103-133 | the full call, with the contact computed from the centres, keeps radii, colours and the position sums |
| Collision.CollidePairOnOverlap | drift_velocity_sdl.c:103-133 | for overlapping disks, with the contact computed from the centres, the two end exactly `r1 + r2` apart and the damped normal components are exchanged in that contact frame, tangents kept |
| Collision.ApartUnchanged | drift_velocity_sdl.c:106-108 | disks whose centres are at least `r1 + r2` apart come back unchanged |
| Collision.ContactDistance | drift_velocity_sdl.c:104-106 | the contact distance squared is `dx^2 + dy^2` |
| Collision.RotateBack | drift_velocity_sdl.c:113-116 | going from the contact frame back to the world and into the frame again returns the same normal and tangential components |
| Collision.RotateForth | drift_velocity_sdl.c:122-125 | going from the world into the contact frame and back returns the same velocity |
| Collision.SpeedInFrame | drift_velocity_sdl.c:113-116 | the change to the contact frame keeps the squared speed |
| Collision.ExchangeInContactFrame | drift_velocity_sdl.c:113-125 | on overlap, each particle's new normal component is `damping` times the other's old one, and both tangential components are unchanged |
| Collision.PushAlongNormal | drift_velocity_sdl.c:127-131 | on overlap, the new offset from p1 to p2 is `(r1 + r2) * (c, s)` |
| Collision.PushToContact | drift_velocity_sdl.c:127-131 | on overlap, the centres end exactly `r1 + r2` apart, coincident centres included |
| Collision.PushSeparates | drift_velocity_sdl.c:127-131 | on overlap, the centres end strictly farther apart than they started |
| Collision.EnergyBalance | drift_velocity_sdl.c:113-125 | on overlap, the sum of squared speeds drops by exactly `(1 - damping^2)` times the sum of the squared normal components |
| Collision.EnergyNeverGrows | drift_velocity_sdl.c:113-125 | for damping in `[-1, 1]`, the sum of squared speeds never grows |
| Collision.ElasticKeepsMomentum | drift_velocity_sdl.c:113-125 | with damping 1, the sum of the two velocities is kept |
| Collision.HeadOnCollision | drift_velocity_sdl.c:103-133 | two electrons 5 apart that approach head on with damping 1 swap velocities and end 6 apart, each moved by 0.5 |
| Collision.CollisionLeavesArena | drift_velocity_sdl.c:128-131 | an electron at x = 0.5 that overlaps an ion is pushed to x = -2, outside the arena the wrap had just put it in |
| Motion.Wrap | drift_velocity_sdl.c:140-141 | for `v >= -bound` the result lies in `[0, bound)`; below that it lies in `(-bound, 0]`; it is always congruent to `v` modulo `bound` |
| Motion.WrapUnique | drift_velocity_sdl.c:140-141 | two points of `[0, bound)` congruent to the same value are equal, so the wrap is the canonical representative |
| Motion.WrapFixesArena | drift_velocity_sdl.c:140-141 | a coordinate already in `[0, bound)` is unchanged by the wrap |
| Motion.WrapIdempotent | drift_velocity_sdl.c:140-141 | wrapping a wrapped coordinate changes nothing, when the first wrap landed in the arena |
| Motion.WrapFarLeft | drift_velocity_sdl.c:140 | `fmodf(-801 + 800, 800)` is `-1`: far-left coordinates stay negative |
| Motion.Integrate | drift_velocity_sdl.c:137-141 | the velocity, radius and colour are kept; the new position is congruent to position plus velocity, and lies in the arena when position plus velocity is at least minus one arena size |
| Motion.IntegrateKeepsArena | drift_velocity_sdl.c:137-141 | an in-arena electron moving less than one arena size per frame stays in the arena; one at rest does not move |
| Schedule.Prefix | drift_velocity_sdl.c:136-150 | every call of the first k outer iterations belongs to an electron below k |
| Schedule.ScheduleMembers | drift_velocity_sdl.c:135-151 | a call is made exactly when it integrates an active electron, collides an active electron with an ion as p2, or collides active electrons i < j with i as p1; ion–ion calls never happen |
| Schedule.ScheduleNoDuplicates | drift_velocity_sdl.c:135-151 | no call is made twice: each pair collides exactly once per frame |
| Schedule.IntegratedBeforeOwnCollisions | drift_velocity_sdl.c:137-149 | an electron is integrated before every collision it makes as p1 |
| Schedule.PartnerIntegratedAfter | drift_velocity_sdl.c:136-149 | in an electron pair i < j, electron j is integrated only after the pair has collided |
| Schedule.ScheduleLength | drift_velocity_sdl.c:135-151 | one frame makes `n(1 + NumIons) + n(n - 1)/2` calls |
| Step.Apply | drift_velocity_sdl.c:137-148 | an integration replaces electron i by its integrated state, a collision replaces the two named slots by the pair `handleCollision` returns, every other slot is unchanged and the array sizes are kept |
| Step.Run | drift_velocity_sdl.c:135-151 | applying a sequence of in-bounds calls keeps the array sizes |
| Step.RunUntouched | drift_velocity_sdl.c:135-151 | a slot that no call names keeps its particle |
| Step.RunAppend | drift_velocity_sdl.c:136-150 | running two call sequences one after the other is running their concatenation |
| Step.ScheduleFits | drift_velocity_sdl.c:41-42 | with at most `NumElectrons` active electrons, every call of a frame indexes existing slots |
| Step.InactiveUntouched | drift_velocity_sdl.c:136 | no call of a frame with n active electrons names an electron at index n or above |
| Step.IonsOnlyCollide | drift_velocity_sdl.c:135-151 | ions are never integrated: every call of a frame that names ion j is a `handleCollision` of an electron with ion j, so an ion's state changes only there |
| Step.CollideWithIons | drift_velocity_sdl.c:143-145 | the ion loop makes exactly the calls of `IonCalls(i)`, and leaves the state that running them describes |
| Step.CollideWithLater | drift_velocity_sdl.c:147-149 | the electron loop makes exactly the calls of `ElectronCalls(i, n)`, and leaves the state that running them describes |
| Step.Iteration | drift_velocity_sdl.c:137-149 | one outer iteration makes exactly the calls of its block, and leaves the state that running them describes |
| Step.MoveParticles | drift_velocity_sdl.c:135-151 | the loops make exactly the frame's calls, in order, all in bounds; the resulting arrays are the run of those calls; inactive electrons are unchanged |
| Controls.IsMouseOverButton | drift_velocity_sdl.c:269-272 | a rectangle of negative width or height is never hit; `HitTestInclusive` pins down the edges |
| Controls.HitTestInclusive | drift_velocity_sdl.c:269-272 | all four corners of a rectangle hit, and the pixels just beyond each edge miss |
| Controls.InitializeSliders | drift_velocity_sdl.c:78-94 | the count slider of the program as written goes up to 500 |
| Controls.SliderValue | drift_velocity_sdl.c:258-259 | the new value lies in `[min, max]`; on the slider it is exactly the linear map of the offset, with no clamping needed |
| Controls.SetParam | drift_velocity_sdl.c:261-263 | at most one parameter changes; slider 0 may change only `maxSpeed`, slider 1 only `collisionDamping`, slider 2 only `numElectrons`, which takes the truncated value |
| Controls.SliderStep | drift_velocity_sdl.c:255-265 | a miss changes nothing; a hit sets slider i's value to `SliderValue` of the mouse's x, keeps it in range, leaves the other sliders alone, and writes that value to parameter i |
| Controls.Sweep | drift_velocity_sdl.c:255-265 | the loop over the sliders keeps every rectangle and range, and a point on no slider leaves the panel unchanged |
| Controls.SweepHit | drift_velocity_sdl.c:255-265 | a point on slider i only sets slider i to the value under the mouse, writes it to parameter i, and leaves the other sliders alone |
| Controls.UpdateSliders | drift_velocity_sdl.c:251-267 | rectangles and ranges never change; events other than a press or a left-button drag change nothing |
| Controls.UpdateSlidersHit | drift_velocity_sdl.c:251-267 | on the program's layout, a press or left-button drag on slider i sets slider i to the value under the mouse and parameter i to that value, and leaves the other sliders unchanged |
| Controls.UpdateConsistent | drift_velocity_sdl.c:251-267 | `updateSliders` keeps the invariant that every value lies in its range and the parameters equal the slider values |
| Controls.InitialConsistent | drift_velocity_sdl.c:47-49 | the start-up parameters agree with the start-up slider values |
| Controls.SlidersDisjoint | drift_velocity_sdl.c:80-90 | no pixel lies on two sliders |
| Controls.AtMostOneParameter | drift_velocity_sdl.c:255-264 | one event writes at most one parameter and at most one slider |
| Controls.ResetControls | drift_velocity_sdl.c:280-285 | a reset keeps the slider rectangles and ranges |
| Controls.ResetConsistent | drift_velocity_sdl.c:280-285 | after a reset the parameters are 8.0, 0.8 and 200, and the panel invariant holds again |
| Controls.CountInRange | drift_velocity_sdl.c:56 | under the invariant, `numElectrons` is at least 50, so the average's divisor is positive, and at most the count slider's maximum |
| Controls.CountSliderReaches500 | drift_velocity_sdl.c:91 | a press at (995, 610) on the start-up panel sets `numElectrons` to 500 |
| Simulation.DrawCoordinate | drift_velocity_sdl.c:61-62 | `rand() % bound` is a whole number in `[0, bound)` that differs from the draw by a multiple of `bound`, which pins it to the remainder |
| Simulation.DrawVelocity | drift_velocity_sdl.c:63-64 | a drawn velocity lies within half of `maxSpeed` on either side of zero, reaches the upper end at `RAND_MAX`, and for positive `maxSpeed` gives the draw back as `(v / maxSpeed + 0.5) * RAND_MAX` |
| Simulation.NewElectron | drift_velocity_sdl.c:60-67 | a new electron is placed at whole coordinates in the arena, is blue with radius 3, and moves at most `maxSpeed / 2` along each axis |
| Simulation.NewIon | drift_velocity_sdl.c:69-75 | a new ion is placed at whole coordinates in the arena, is red with radius 6, and is at rest |
| Simulation.InitializeParticles | drift_velocity_sdl.c:59-76 | all 200 electron slots and all 50 ions are initialised as above |
| Simulation.Startup | drift_velocity_sdl.c:327-329 | start-up initialises the particles with the default speed, and the parameters are 8.0, 0.8 and 200 |
| Simulation.HandleResetButton | drift_velocity_sdl.c:274-288 | anything but a press on the button changes nothing; a press re-initialises the particles with the old `maxSpeed`, restores 8.0, 0.8 and 200, and puts the slider values back |
| Simulation.ResetUsesPreviousMaxSpeed | drift_velocity_sdl.c:279-280 | with `maxSpeed` 15 before the reset, a draw of `RAND_MAX` gives velocity 7.5, not 4 |
| Simulation.HandleEvent | drift_velocity_sdl.c:339-340 | an event never changes the slider rectangles or ranges; any event but a reset click leaves the particles alone; a reset click restores the parameters (8.0, 0.8, 200) and re-initialises the particles with the `maxSpeed` the slider pass has just set |
| Simulation.StartupValid | drift_velocity_sdl.c:327-329 | start-up establishes the event-loop invariant |
| Simulation.EventKeepsValid | drift_velocity_sdl.c:339-340 | every event keeps the invariant, and `numElectrons` within `[50, countMax]` |
| Simulation.AverageVelocity | drift_velocity_sdl.c:56 | the average times `numElectrons` gives back the total |
| Simulation.AverageDefined | drift_velocity_sdl.c:56 | in every reachable state the divisor is at least 50 |
| Simulation.Tick | drift_velocity_sdl.c:343 | a frame's state is the run of the frame's calls for the current `numElectrons`, every one in bounds, with the current `collisionDamping`; the panel, the array sizes and the inactive electrons are kept |
| Simulation.SliderOverrunsElectronArray | drift_velocity_sdl.c:91 | after start-up, one press sets `numElectrons` to 500, and the next frame integrates electron 200, which has no slot |
| Simulation.CorrectedStaysInBounds | drift_velocity_sdl.c:91 | with the count slider capped at 200, every event keeps `numElectrons` in `[50, 200]`, and every call of the next frame is in bounds |

## Left out

- Drawing, fonts, windowing, event polling and the `main` loop (`drawParticles`, `drawSliders`,
  `drawResetButton`, `drawControlPanel`, `main`) are display and I/O only. From `main`, the model keeps the
  start-up order (lines 327-329), the handler order (339-340) and the frame step (343).
- `srand(time(NULL))` and `SDL_Delay` are left out. The values of `rand()` are a parameter instead.
- The `quit` flag of `SDL_QUIT` is left out. Such an event reaches the handlers as `OtherEvent`.
- Slider and button labels are left out; they only feed the text renderer.
- Collision.HandleCollision: float rounding, signed zeros and NaN are not modelled; the arithmetic is exact
  over reals.
- Collision.ContactOf: `atan2`/`cos`/`sin` are replaced by their exact values `dx / d`, `dy / d`, so float
  rounding of the trigonometry is not modelled.
- Motion.Integrate: `fmodf` is exact over reals; float rounding of `x + vx` and of the remainder is not
  modelled.
- Simulation.DrawVelocity: `(float)rand()` rounds to 24 bits, and `RAND_MAX` converted to float is `2^31`.
  The model divides exactly, so its bound is the real-number bound.
- Simulation.AverageVelocity: the sum of square roots over the active electrons is a parameter. Only the
  divisor is modelled.
- Step.MoveParticles: the method requires `numElectrons <= 200`, because the C loops index a 200-slot array.
  The program as written does not keep that bound; this is the finding below. Simulation.Tick has the same
  requirement.
- Controls.UpdateSliders: the model requires nonzero slider widths. The C code would divide by zero
  otherwise, and every slider it builds is 180 wide.

## Findings

| source | as written | input that shows it | evidently intended | confidence | as-written member | corrected member |
|---|---|---|---|---|---|---|
| drift_velocity_sdl.c:91 | the "Number of Electrons" slider ranges over `[50, 500]`, and line 263 copies its value into `numElectrons`, which bounds the loops at lines 53, 136, 147 and 154 over the 200-slot `electrons` array (line 41) | after start-up, a mouse press at (995, 610) sets `numElectrons` to 500; the next `moveParticles` reads and writes `electrons[200]` to `electrons[499]` | the slider's maximum is the array size, `NUM_ELECTRONS` | not executed | Simulation.SliderOverrunsElectronArray | Simulation.CorrectedStaysInBounds |

=== FILE: collision.dfy ===
/** Pairwise collision response, `handleCollision` (drift_velocity_sdl.c, lines 103-133).

    The C code computes `distance = sqrt(dx*dx + dy*dy)` and `angle = atan2(dy, dx)` and then
    works with `sin(angle)` and `cos(angle)`.  Here those three numbers arrive together as a
    `Contact`, tied to the offset (dx, dy) by `ValidContact`; everything after that is plain
    real arithmetic. */
module Collision {
  import opened Numerics
  import opened Particles

  /** Distance between the centres, and the cosine and sine of the direction from p1 to p2. */
  datatype Contact = Contact(d: real, c: real, s: real)

  /** What `sqrt`, `atan2`, `cos` and `sin` deliver for the offset (dx, dy): (c, s) is a unit
      vector and the offset is `d` times it, with `d` not negative.  For coincident centres the
      C code gets atan2(0, 0) = 0, that is (c, s) = (1, 0); any unit vector is allowed here. */
  predicate ValidContact(dx: real, dy: real, k: Contact) {
    && 0.0 <= k.d
    && dx == k.d * k.c
    && dy == k.d * k.s
    && Sq(k.c) + Sq(k.s) == 1.0
  }

  /** The contact geometry computed from the offset with a given square root:
      the distance, then the offset divided by it, or (1, 0) when the distance is 0. */
  function ContactOf(sqrt: real -> real, dx: real, dy: real): (k: Contact)
    requires IsSqrt(sqrt)
    ensures ValidContact(dx, dy, k)
    ensures Sq(k.d) == Sq(dx) + Sq(dy)
    ensures k.d == 0.0 ==> k.c == 1.0 && k.s == 0.0
  {
    SqNonneg(dx);
    SqNonneg(dy);
    var d := sqrt(Sq(dx) + Sq(dy));
    if d == 0.0 then
      CoincidentContact(dx, dy, d);
      Contact(0.0, 1.0, 0.0)
    else
      SeparateContact(dx, dy, d);
      Contact(d, dx / d, dy / d)
  }

  lemma CoincidentContact(dx: real, dy: real, d: real)
    requires d == 0.0 && Sq(d) == Sq(dx) + Sq(dy)
    ensures dx == 0.0 && dy == 0.0
  {
    SqNonneg(dx);
    SqNonneg(dy);
    if dx != 0.0 { SqPos(dx); }
    if dy != 0.0 { SqPos(dy); }
  }

  lemma SeparateContact(dx: real, dy: real, d: real)
    requires 0.0 < d && Sq(d) == Sq(dx) + Sq(dy)
    ensures dx == d * (dx / d) && dy == d * (dy / d)
    ensures Sq(dx / d) + Sq(dy / d) == 1.0
  {
    var c := dx / d;
    var s := dy / d;
    DivMul(dx, d, c);
    DivMul(dy, d, s);
    var u := Sq(c) + Sq(s);
    var m := Sq(d);
    calc {
      u * m;
      Sq(c) * Sq(d) + Sq(s) * Sq(d);
      { SqMul(c, d); SqMul(s, d); }
      Sq(c * d) + Sq(s * d);
      Sq(dx) + Sq(dy);
      m;
    }
    SqPos(d);
    CancelFactor(u, m, m);
  }

  /** Velocity component along the contact normal. */
  function Normal(vx: real, vy: real, k: Contact): real {
    vx * k.c + vy * k.s
  }

  /** Velocity component across the contact normal. */
  function Tangent(vx: real, vy: real, k: Contact): real {
    -vx * k.s + vy * k.c
  }

  /** The world x and y components of a velocity given in the contact frame. */
  function WorldX(n: real, t: real, k: Contact): real {
    n * k.c - t * k.s
  }

  function WorldY(n: real, t: real, k: Contact): real {
    n * k.s + t * k.c
  }

  /** Centres closer than this overlap.  The radii are C `int`s. */
  function ContactRadius(p1: Particle, p2: Particle): real {
    (p1.radius + p2.radius) as real
  }

  /** How far `handleCollision` moves each particle: half the depth of the overlap. */
  function Overlap(p1: Particle, p2: Particle, k: Contact): real {
    (ContactRadius(p1, p2) - k.d) / 2.0
  }

  /** `handleCollision(p1, p2)` with `collisionDamping` = `damping`; returns the new `*p1`, `*p2`. */
  function HandleCollision(p1: Particle, p2: Particle, damping: real, k: Contact): (r: (Particle, Particle))
    ensures k.d >= ContactRadius(p1, p2) ==> r == (p1, p2)
    ensures r.0.radius == p1.radius && r.0.color == p1.color
    ensures r.1.radius == p2.radius && r.1.color == p2.color
    ensures r.0.x + r.1.x == p1.x + p2.x && r.0.y + r.1.y == p1.y + p2.y
  {
    if k.d < ContactRadius(p1, p2) then
      var n1 := Normal(p1.vx, p1.vy, k);
      var t1 := Tangent(p1.vx, p1.vy, k);
      var n2 := Normal(p2.vx, p2.vy, k);
      var t2 := Tangent(p2.vx, p2.vy, k);
      var overlap := Overlap(p1, p2, k);
      (p1.(vx := WorldX(n2 * damping, t1, k), vy := WorldY(n2 * damping, t1, k),
           x := p1.x - overlap * k.c, y := p1.y - overlap * k.s),
       p2.(vx := WorldX(n1 * damping, t2, k), vy := WorldY(n1 * damping, t2, k),
           x := p2.x + overlap * k.c, y := p2.y + overlap * k.s))
    else
      (p1, p2)
  }

  /** The whole of `handleCollision`: the contact is computed from the two centres. */
  function CollidePair(p1: Particle, p2: Particle, damping: real, sqrt: real -> real): (r: (Particle, Particle))
    requires IsSqrt(sqrt)
    ensures r.0.radius == p1.radius && r.0.color == p1.color
    ensures r.1.radius == p2.radius && r.1.color == p2.color
    ensures r.0.x + r.1.x == p1.x + p2.x && r.0.y + r.1.y == p1.y + p2.y
  {
    HandleCollision(p1, p2, damping, ContactOf(sqrt, p2.x - p1.x, p2.y - p1.y))
  }

  /** Overlapping particles, with the contact the frame actually computes from the centres: the two
      end exactly `r1 + r2` apart, and in that contact frame the damped normal components are swapped
      and the tangential ones kept. */
  lemma CollidePairOnOverlap(p1: Particle, p2: Particle, damping: real, sqrt: real -> real)
    requires IsSqrt(sqrt)
    requires 0.0 <= ContactRadius(p1, p2)
    requires Sq(p2.x - p1.x) + Sq(p2.y - p1.y) < Sq(ContactRadius(p1, p2))
    ensures var r := CollidePair(p1, p2, damping, sqrt);
      Sq(r.1.x - r.0.x) + Sq(r.1.y - r.0.y) == Sq(ContactRadius(p1, p2))
    ensures Exchanged(p1, p2, CollidePair(p1, p2, damping, sqrt), damping, ContactOf(sqrt, p2.x - p1.x, p2.y - p1.y))
  {
    var k := ContactOf(sqrt, p2.x - p1.x, p2.y - p1.y);
    OverlapContact(ContactRadius(p1, p2), p2.x - p1.x, p2.y - p1.y, k);
    PushToContact(p1, p2, damping, k);
    ExchangeInContactFrame(p1, p2, damping, k);
  }

  /** An offset shorter than `rad` has a contact distance below `rad`. */
  lemma OverlapContact(rad: real, dx: real, dy: real, k: Contact)
    requires 0.0 <= rad && 0.0 <= k.d && Sq(k.d) == Sq(dx) + Sq(dy) && Sq(dx) + Sq(dy) < Sq(rad)
    ensures k.d < rad
  {}

  /** Particles whose centres are at least `r1 + r2` apart are left exactly as they were. */
  lemma ApartUnchanged(p1: Particle, p2: Particle, damping: real, sqrt: real -> real)
    requires IsSqrt(sqrt)
    requires 0.0 <= ContactRadius(p1, p2)
    requires Sq(ContactRadius(p1, p2)) <= Sq(p2.x - p1.x) + Sq(p2.y - p1.y)
    ensures CollidePair(p1, p2, damping, sqrt) == (p1, p2)
  {
    var k := ContactOf(sqrt, p2.x - p1.x, p2.y - p1.y);
    if k.d < ContactRadius(p1, p2) {
      SqStrictMono(k.d, ContactRadius(p1, p2));
    }
  }

  /** The distance of a contact is the length of the offset. */
  lemma ContactDistance(dx: real, dy: real, k: Contact)
    requires ValidContact(dx, dy, k)
    ensures Sq(k.d) == Sq(dx) + Sq(dy)
  {
    ScaledUnit(dx, dy, k.d, k.c, k.s);
  }

  /** Going to the contact frame and back is the identity, in both orders. */
  lemma RotateBack(n: real, t: real, k: Contact)
    requires Sq(k.c) + Sq(k.s) == 1.0
    ensures Normal(WorldX(n, t, k), WorldY(n, t, k), k) == n
    ensures Tangent(WorldX(n, t, k), WorldY(n, t, k), k) == t
  {}

  lemma RotateForth(vx: real, vy: real, k: Contact)
    requires Sq(k.c) + Sq(k.s) == 1.0
    ensures WorldX(Normal(vx, vy, k), Tangent(vx, vy, k), k) == vx
    ensures WorldY(Normal(vx, vy, k), Tangent(vx, vy, k), k) == vy
  {}

  /** The contact frame is a rotation: it keeps the squared speed. */
  lemma SpeedInFrame(vx: real, vy: real, k: Contact)
    requires Sq(k.c) + Sq(k.s) == 1.0
    ensures Sq(Normal(vx, vy, k)) + Sq(Tangent(vx, vy, k)) == Sq(vx) + Sq(vy)
  {}

  /** In the contact frame `k`, the velocities of `r` are those of `p1` and `p2` with the normal
      components exchanged and scaled by `damping`, and each tangential component kept. */
  predicate Exchanged(p1: Particle, p2: Particle, r: (Particle, Particle), damping: real, k: Contact) {
    && Normal(r.0.vx, r.0.vy, k) == damping * Normal(p2.vx, p2.vy, k)
    && Normal(r.1.vx, r.1.vy, k) == damping * Normal(p1.vx, p1.vy, k)
    && Tangent(r.0.vx, r.0.vy, k) == Tangent(p1.vx, p1.vy, k)
    && Tangent(r.1.vx, r.1.vy, k) == Tangent(p2.vx, p2.vy, k)
  }

  /** On overlap, `handleCollision` makes the exchange in the contact frame `k`. */
  lemma ExchangeInContactFrame(p1: Particle, p2: Particle, damping: real, k: Contact)
    requires ValidContact(p2.x - p1.x, p2.y - p1.y, k)
    requires k.d < ContactRadius(p1, p2)
    ensures Exchanged(p1, p2, HandleCollision(p1, p2, damping, k), damping, k)
  {
    var m1 := Normal(p2.vx, p2.vy, k) * damping;
    var m2 := Normal(p1.vx, p1.vy, k) * damping;
    var t1 := Tangent(p1.vx, p1.vy, k);
    var t2 := Tangent(p2.vx, p2.vy, k);
    BouncedVelocities(p1, p2, damping, k);
    RotateBack(m1, t1, k);
    RotateBack(m2, t2, k);
  }

  lemma BouncedVelocities(p1: Particle, p2: Particle, damping: real, k: Contact)
    requires k.d < ContactRadius(p1, p2)
    ensures var r := HandleCollision(p1, p2, damping, k);
      var m1 := Normal(p2.vx, p2.vy, k) * damping;
      var m2 := Normal(p1.vx, p1.vy, k) * damping;
      var t1 := Tangent(p1.vx, p1.vy, k);
      var t2 := Tangent(p2.vx, p2.vy, k);
      && r.0.vx == WorldX(m1, t1, k) && r.0.vy == WorldY(m1, t1, k)
      && r.1.vx == WorldX(m2, t2, k) && r.1.vy == WorldY(m2, t2, k)
  {}

  /** After an overlap the centres sit exactly `r1 + r2` apart, also when they coincided. */
  lemma PushToContact(p1: Particle, p2: Particle, damping: real, k: Contact)
    requires ValidContact(p2.x - p1.x, p2.y - p1.y, k)
    requires k.d < ContactRadius(p1, p2)
    ensures var r := HandleCollision(p1, p2, damping, k);
      Sq(r.1.x - r.0.x) + Sq(r.1.y - r.0.y) == Sq(ContactRadius(p1, p2))
  {
    PushAlongNormal(p1, p2, damping, k);
    var r := HandleCollision(p1, p2, damping, k);
    ScaledUnit(r.1.x - r.0.x, r.1.y - r.0.y, ContactRadius(p1, p2), k.c, k.s);
  }

  /** The push turns the offset `d * (c, s)` into `(r1 + r2) * (c, s)`. */
  lemma PushAlongNormal(p1: Particle, p2: Particle, damping: real, k: Contact)
    requires ValidContact(p2.x - p1.x, p2.y - p1.y, k)
    requires k.d < ContactRadius(p1, p2)
    ensures var r := HandleCollision(p1, p2, damping, k);
      && r.1.x - r.0.x == ContactRadius(p1, p2) * k.c
      && r.1.y - r.0.y == ContactRadius(p1, p2) * k.s
  {
    PushAlongX(p1, p2, damping, k);
    PushAlongY(p1, p2, damping, k);
  }

  lemma PushAlongX(p1: Particle, p2: Particle, damping: real, k: Contact)
    requires ValidContact(p2.x - p1.x, p2.y - p1.y, k)
    requires k.d < ContactRadius(p1, p2)
    requires p2.x - p1.x == k.d * k.c
    ensures var r := HandleCollision(p1, p2, damping, k);
      r.1.x - r.0.x == ContactRadius(p1, p2) * k.c
  {
    PushedPositions(p1, p2, damping, k);
    Separation(p1.x, p2.x, Overlap(p1, p2, k), k.c, ContactRadius(p1, p2), k.d);
  }

  lemma PushAlongY(p1: Particle, p2: Particle, damping: real, k: Contact)
    requires ValidContact(p2.x - p1.x, p2.y - p1.y, k)
    requires k.d < ContactRadius(p1, p2)
    requires p2.y - p1.y == k.d * k.s
    ensures var r := HandleCollision(p1, p2, damping, k);
      r.1.y - r.0.y == ContactRadius(p1, p2) * k.s
  {
    PushedPositions(p1, p2, damping, k);
    Separation(p1.y, p2.y, Overlap(p1, p2, k), k.s, ContactRadius(p1, p2), k.d);
  }

  lemma Separation(a: real, b: real, o: real, c: real, radius: real, d: real)
    requires b - a == d * c && 2.0 * o == radius - d
    ensures (b + o * c) - (a - o * c) == radius * c
  {
    assert o * c + o * c == radius * c - d * c;
  }

  lemma PushedPositions(p1: Particle, p2: Particle, damping: real, k: Contact)
    requires k.d < ContactRadius(p1, p2)
    ensures var r := HandleCollision(p1, p2, damping, k);
      var o := Overlap(p1, p2, k);
      && r.0.x == p1.x - o * k.c && r.1.x == p2.x + o * k.c
      && r.0.y == p1.y - o * k.s && r.1.y == p2.y + o * k.s
  {}

  lemma ScaledUnit(ex: real, ey: real, a: real, c: real, s: real)
    requires Sq(c) + Sq(s) == 1.0 && ex == a * c && ey == a * s
    ensures Sq(ex) + Sq(ey) == Sq(a)
  {
    assert (a * c) * (a * c) + (a * s) * (a * s) == (a * a) * (c * c + s * s);
  }

  /** The push only ever separates: overlapping centres end strictly farther apart. */
  lemma PushSeparates(p1: Particle, p2: Particle, damping: real, k: Contact)
    requires ValidContact(p2.x - p1.x, p2.y - p1.y, k)
    requires k.d < ContactRadius(p1, p2)
    ensures var r := HandleCollision(p1, p2, damping, k);
      Sq(p2.x - p1.x) + Sq(p2.y - p1.y) < Sq(r.1.x - r.0.x) + Sq(r.1.y - r.0.y)
  {
    ContactDistance(p2.x - p1.x, p2.y - p1.y, k);
    PushToContact(p1, p2, damping, k);
    SqStrictMono(k.d, ContactRadius(p1, p2));
  }

  lemma SqStrictMono(a: real, b: real)
    requires 0.0 <= a < b
    ensures Sq(a) < Sq(b)
  {
    if a == 0.0 {
      SqPos(b);
    } else {
      ScaleStrict(a, b, a);
      ScaleStrict(a, b, b);
    }
  }

  /** Squared speeds: the sum over both particles drops by exactly `(1 - damping^2)` times the
      squared normal speeds, so it is kept for `damping == 1` and never grows for `|damping| <= 1`. */
  lemma EnergyBalance(p1: Particle, p2: Particle, damping: real, k: Contact)
    requires ValidContact(p2.x - p1.x, p2.y - p1.y, k)
    requires k.d < ContactRadius(p1, p2)
    ensures var r := HandleCollision(p1, p2, damping, k);
      Sq(r.0.vx) + Sq(r.0.vy) + Sq(r.1.vx) + Sq(r.1.vy)
      == Sq(p1.vx) + Sq(p1.vy) + Sq(p2.vx) + Sq(p2.vy)
         - (1.0 - Sq(damping)) * (Sq(Normal(p1.vx, p1.vy, k)) + Sq(Normal(p2.vx, p2.vy, k)))
  {
    var r := HandleCollision(p1, p2, damping, k);
    ExchangeInContactFrame(p1, p2, damping, k);
    ExchangeEnergy(p1.vx, p1.vy, p2.vx, p2.vy, r.0.vx, r.0.vy, r.1.vx, r.1.vy, damping, k);
  }

  /** The energy bookkeeping of an exchange of damped normal components, for any velocities. */
  lemma ExchangeEnergy(vx1: real, vy1: real, vx2: real, vy2: real, wx1: real, wy1: real, wx2: real, wy2: real,
                       damping: real, k: Contact)
    requires Sq(k.c) + Sq(k.s) == 1.0
    requires Normal(wx1, wy1, k) == damping * Normal(vx2, vy2, k) && Tangent(wx1, wy1, k) == Tangent(vx1, vy1, k)
    requires Normal(wx2, wy2, k) == damping * Normal(vx1, vy1, k) && Tangent(wx2, wy2, k) == Tangent(vx2, vy2, k)
    ensures Sq(wx1) + Sq(wy1) + Sq(wx2) + Sq(wy2)
      == Sq(vx1) + Sq(vy1) + Sq(vx2) + Sq(vy2) - (1.0 - Sq(damping)) * (Sq(Normal(vx1, vy1, k)) + Sq(Normal(vx2, vy2, k)))
  {
    SpeedInFrame(vx1, vy1, k);
    SpeedInFrame(vx2, vy2, k);
    SpeedInFrame(wx1, wy1, k);
    SpeedInFrame(wx2, wy2, k);
    var n1 := Normal(vx1, vy1, k);
    var n2 := Normal(vx2, vy2, k);
    SqMul(damping, n1);
    SqMul(damping, n2);
  }

  lemma EnergyNeverGrows(p1: Particle, p2: Particle, damping: real, k: Contact)
    requires ValidContact(p2.x - p1.x, p2.y - p1.y, k)
    requires -1.0 <= damping <= 1.0
    ensures var r := HandleCollision(p1, p2, damping, k);
      Sq(r.0.vx) + Sq(r.0.vy) + Sq(r.1.vx) + Sq(r.1.vy)
      <= Sq(p1.vx) + Sq(p1.vy) + Sq(p2.vx) + Sq(p2.vy)
  {
    if k.d < ContactRadius(p1, p2) {
      EnergyBalance(p1, p2, damping, k);
      var e := 1.0 - Sq(damping);
      var n := Sq(Normal(p1.vx, p1.vy, k)) + Sq(Normal(p2.vx, p2.vy, k));
      SqNonneg(Normal(p1.vx, p1.vy, k));
      SqNonneg(Normal(p2.vx, p2.vy, k));
      SqAtMostOne(damping);
      NonnegProduct(e, n);
    }
  }

  lemma SqAtMostOne(a: real)
    requires -1.0 <= a <= 1.0
    ensures Sq(a) <= 1.0
  {
    if 0.0 <= a {
      assert a * a <= a * 1.0;
    } else {
      assert (-a) * (-a) <= (-a) * 1.0;
    }
  }

  lemma NonnegProduct(a: real, b: real)
    requires 0.0 <= a && 0.0 <= b
    ensures 0.0 <= a * b
  {
    if 0.0 < a && 0.0 < b { MulPos(a, b); }
  }

  /** For `damping == 1` the total velocity (the momentum of equal masses) is kept. */
  lemma ElasticKeepsMomentum(p1: Particle, p2: Particle, k: Contact)
    requires ValidContact(p2.x - p1.x, p2.y - p1.y, k)
    ensures var r := HandleCollision(p1, p2, 1.0, k);
      r.0.vx + r.1.vx == p1.vx + p2.vx && r.0.vy + r.1.vy == p1.vy + p2.vy
  {
    if k.d < ContactRadius(p1, p2) {
      RotateForth(p1.vx, p1.vy, k);
      RotateForth(p2.vx, p2.vy, k);
    }
  }

  /** Two electrons meeting head on with `damping == 1` swap velocities and end 6 apart. */
  lemma HeadOnCollision()
    ensures var p1 := Particle(100.0, 100.0, 2.0, 0.0, 3, Blue);
      var p2 := Particle(105.0, 100.0, -2.0, 0.0, 3, Blue);
      var k := Contact(5.0, 1.0, 0.0);
      && ValidContact(p2.x - p1.x, p2.y - p1.y, k)
      && HandleCollision(p1, p2, 1.0, k)
         == (Particle(99.5, 100.0, -2.0, 0.0, 3, Blue), Particle(105.5, 100.0, 2.0, 0.0, 3, Blue))
  {}

  /** An electron just inside the left edge that overlaps an ion is pushed out of the arena,
      and the ion is pushed and deflected as well: ions are not fixed. */
  lemma CollisionLeavesArena()
    ensures var e := Particle(0.5, 100.0, 1.0, 0.5, 3, Blue);
      var ion := Particle(4.5, 100.0, -1.0, 0.5, 6, Red);
      var k := Contact(4.0, 1.0, 0.0);
      && ValidContact(ion.x - e.x, ion.y - e.y, k)
      && HandleCollision(e, ion, 0.8, k)
         == (Particle(-2.0, 100.0, -0.8, 0.5, 3, Blue), Particle(7.0, 100.0, 0.8, 0.5, 6, Red))
  {}
}

=== FILE: config.dfy ===
/** Build-time constants of the simulation (drift_velocity_sdl.c, lines 8-22). */
module Config {

  const WindowWidth: int := 1000
  const WindowHeight: int := 700

  /** The arena the electrons wrap around in. */
  const SimWidth: int := 800
  const SimHeight: int := 600

  /** Slots in the electron array, and the default number of active electrons. */
  const NumElectrons: int := 200
  const NumIons: int := 50

  const ElectronRadius: int := 3
  const IonRadius: int := 6

  /** Defaults of the two real-valued parameters. */
  const DefaultMaxSpeed: real := 8.0
  const DefaultDamping: real := 0.8

  /** The control panel sits in the lower right corner of the window. */
  const PanelWidth: int := 190
  const PanelHeight: int := 230
  const PanelX: int := WindowWidth - PanelWidth
  const PanelY: int := WindowHeight - PanelHeight

  /** Largest value `rand()` returns: glibc's, the C standard only promises 32767 or more. */
  const RandMax: int := 0x7fff_ffff
}

=== FILE: controls.dfy ===
/** The control panel: three sliders that set the simulation parameters, and the reset button's
    hit test (drift_velocity_sdl.c, lines 30-39, 47-49, 78-101, 251-272). */
module Controls {
  import opened Numerics
  import opened Config

  /** An `SDL_Rect`: top-left corner, width and height in window pixels. */
  datatype Rect = Rect(x: int, y: int, w: int, h: int)

  /** A slider: where it is drawn, its range and its current value. The label is left out. */
  datatype Slider = Slider(rect: Rect, min: real, max: real, value: real)

  /** The globals `maxSpeed`, `collisionDamping` and `numElectrons`. */
  datatype Params = Params(maxSpeed: real, damping: real, numElectrons: int)

  /** The three sliders together with the parameters they drive. */
  datatype Panel = Panel(sliders: seq<Slider>, params: Params)

  /** What `updateSliders` looks at in an `SDL_Event`. A motion event carries whether the left
      button is held; any other event type (a key, a quit request, a button release) is `OtherEvent`. */
  datatype Event =
    | MouseButtonDown(x: int, y: int)
    | MouseMotion(x: int, y: int, leftHeld: bool)
    | OtherEvent

  /** The start-up values of the globals (lines 47-49). */
  const DefaultParams: Params := Params(DefaultMaxSpeed, DefaultDamping, NumElectrons)

  /** `isMouseOverButton`: the point lies in the rectangle, all four edges included.
      `updateSliders` makes the same test inline. */
  function IsMouseOverButton(mx: int, my: int, rect: Rect): (hit: bool)
    ensures hit ==> rect.w >= 0 && rect.h >= 0
  {
    mx >= rect.x && mx <= rect.x + rect.w && my >= rect.y && my <= rect.y + rect.h
  }

  /** The hit test accepts the four corners of a rectangle and rejects the pixels just beyond each edge. */
  lemma HitTestInclusive(rect: Rect)
    requires rect.w >= 0 && rect.h >= 0
    ensures IsMouseOverButton(rect.x, rect.y, rect) && IsMouseOverButton(rect.x + rect.w, rect.y, rect)
    ensures IsMouseOverButton(rect.x, rect.y + rect.h, rect) && IsMouseOverButton(rect.x + rect.w, rect.y + rect.h, rect)
    ensures !IsMouseOverButton(rect.x - 1, rect.y, rect) && !IsMouseOverButton(rect.x + rect.w + 1, rect.y, rect)
    ensures !IsMouseOverButton(rect.x, rect.y - 1, rect) && !IsMouseOverButton(rect.x, rect.y + rect.h + 1, rect)
  {}

  /** The slider layout of `initializeSliders` (lines 78-94), with the top of the electron-count
      range as a parameter. */
  function SliderLayout(countMax: real): (s: seq<Slider>)
    ensures |s| == 3
  {
    [ Slider(Rect(PanelX + 5, PanelY + 30, 180, 20), 1.0, 15.0, DefaultMaxSpeed),
      Slider(Rect(PanelX + 5, PanelY + 80, 180, 20), 0.1, 1.0, DefaultDamping),
      Slider(Rect(PanelX + 5, PanelY + 130, 180, 20), 50.0, countMax, NumElectrons as real) ]
  }

  /** `initializeSliders` as written: the electron count goes up to 500. */
  function InitializeSliders(): (s: seq<Slider>)
    ensures |s| == 3 && s[2].max == 500.0
  {
    SliderLayout(500.0)
  }

  /** The electron-count slider capped at the size of the electron array. */
  function CorrectedSliders(): (s: seq<Slider>)
    ensures |s| == 3 && s[2].max == NumElectrons as real
  {
    SliderLayout(NumElectrons as real)
  }

  /** `initializeResetButton` (lines 96-101): the button sits below the sliders. */
  const ResetButton: Rect := Rect(PanelX + 5, PanelY + 180, 180, 30)

  /** Two rows of three sliders with the same rectangles and ranges; only the values may differ. */
  predicate SameLayout(a: seq<Slider>, b: seq<Slider>) {
    |a| == 3 && |b| == 3
    && forall k :: 0 <= k < 3 ==> a[k].rect == b[k].rect && a[k].min == b[k].min && a[k].max == b[k].max
  }

  /** A panel has three sliders, none of zero width (the slider mapping divides by the width). */
  predicate Shaped(p: Panel) {
    |p.sliders| == 3 && forall i :: 0 <= i < 3 ==> p.sliders[i].rect.w != 0
  }

  /** The value under the mouse: the offset into the slider mapped linearly onto `[min, max]`
      and pinned into that range (lines 258-259). */
  function SliderValue(s: Slider, mx: int): (v: real)
    requires s.rect.w != 0
    ensures s.min <= s.max ==> s.min <= v <= s.max
    ensures s.min <= s.max && s.rect.w > 0 && s.rect.x <= mx <= s.rect.x + s.rect.w ==>
      v == s.min + (mx - s.rect.x) as real * (s.max - s.min) / s.rect.w as real
  {
    var raw := s.min + (mx - s.rect.x) as real * (s.max - s.min) / s.rect.w as real;
    if s.min <= s.max && s.rect.w > 0 && s.rect.x <= mx <= s.rect.x + s.rect.w then
      RawInRange(s, mx);
      Clamp(s.min, s.max, raw)
    else
      Clamp(s.min, s.max, raw)
  }

  /** Inside the slider, the linear mapping stays within `[min, max]`, so the clamp leaves it alone. */
  lemma RawInRange(s: Slider, mx: int)
    requires s.min <= s.max && s.rect.w > 0 && s.rect.x <= mx <= s.rect.x + s.rect.w
    ensures s.min <= s.min + (mx - s.rect.x) as real * (s.max - s.min) / s.rect.w as real <= s.max
  {
    var off := (mx - s.rect.x) as real;
    var span := s.max - s.min;
    var w := s.rect.w as real;
    var q := off / w;
    DivMul(off, w, q);
    QuotientAbove(off, w, 0.0);
    assert 0.0 <= q by {
      if q < 0.0 { ScaleStrict(q, 0.0, w); }
    }
    assert q <= 1.0 by {
      if q > 1.0 { ScaleStrict(1.0, q, w); }
    }
    ProductInUnit(q, span);
    assert off * span / w == q * span;
  }

  lemma ProductInUnit(q: real, span: real)
    requires 0.0 <= q <= 1.0 && 0.0 <= span
    ensures 0.0 <= q * span <= span
  {
    if 0.0 < span {
      ScaleMono(0.0, q, span);
      ScaleMono(q, 1.0, span);
    }
  }

  /** Slider `i` writes its parameter: `numElectrons` takes the value truncated to an int (line 263). */
  function SetParam(ps: Params, i: int, v: real): (r: Params)
    ensures ChangedParams(ps, r) <= 1
    ensures i != 0 ==> r.maxSpeed == ps.maxSpeed
    ensures i != 1 ==> r.damping == ps.damping
    ensures i != 2 ==> r.numElectrons == ps.numElectrons
    ensures i == 0 ==> r.maxSpeed == v
    ensures i == 1 ==> r.damping == v
    ensures i == 2 ==> r.numElectrons == Trunc(v)
  {
    if i == 0 then ps.(maxSpeed := v)
    else if i == 1 then ps.(damping := v)
    else if i == 2 then ps.(numElectrons := Trunc(v))
    else ps
  }

  /** One iteration of the loop at lines 255-265: if the mouse is on slider `i`, set its value and
      its parameter; otherwise change nothing. */
  function SliderStep(p: Panel, i: int, mx: int, my: int): (r: Panel)
    requires Shaped(p) && 0 <= i < 3
    ensures Shaped(r)
    ensures SameLayout(r.sliders, p.sliders)
    ensures forall k :: 0 <= k < 3 && k != i ==> r.sliders[k] == p.sliders[k]
    ensures !IsMouseOverButton(mx, my, p.sliders[i].rect) ==> r == p
    ensures IsMouseOverButton(mx, my, p.sliders[i].rect) && p.sliders[i].min <= p.sliders[i].max ==>
      p.sliders[i].min <= r.sliders[i].value <= p.sliders[i].max
    ensures IsMouseOverButton(mx, my, p.sliders[i].rect) ==>
      r.sliders[i] == p.sliders[i].(value := SliderValue(p.sliders[i], mx))
    ensures IsMouseOverButton(mx, my, p.sliders[i].rect) ==>
      r.params == SetParam(p.params, i, r.sliders[i].value)
  {
    var s := p.sliders[i];
    if IsMouseOverButton(mx, my, s.rect) then
      var v := SliderValue(s, mx);
      Panel(p.sliders[i := s.(value := v)], SetParam(p.params, i, v))
    else
      p
  }

  /** The whole loop over the three sliders, for the mouse at `(mx, my)`. */
  function Sweep(p: Panel, mx: int, my: int): (r: Panel)
    requires Shaped(p)
    ensures Shaped(r)
    ensures SameLayout(r.sliders, p.sliders)
    ensures Missed(p, mx, my) ==> r == p
  {
    SliderStep(SliderStep(SliderStep(p, 0, mx, my), 1, mx, my), 2, mx, my)
  }

  /** The point `(mx, my)` is on none of the panel's sliders. */
  predicate Missed(p: Panel, mx: int, my: int)
    requires |p.sliders| == 3
  {
    forall k :: 0 <= k < 3 ==> !IsMouseOverButton(mx, my, p.sliders[k].rect)
  }

  /** A point on slider `i` and on no other: the sweep sets slider `i` to the value under the mouse,
      writes that value to parameter `i`, and leaves the other two sliders as they were. */
  lemma SweepHit(p: Panel, i: int, mx: int, my: int)
    requires Shaped(p) && 0 <= i < 3 && IsMouseOverButton(mx, my, p.sliders[i].rect)
    requires forall k :: 0 <= k < 3 && k != i ==> !IsMouseOverButton(mx, my, p.sliders[k].rect)
    ensures Sweep(p, mx, my).sliders[i] == p.sliders[i].(value := SliderValue(p.sliders[i], mx))
    ensures Sweep(p, mx, my).params == SetParam(p.params, i, SliderValue(p.sliders[i], mx))
    ensures forall k :: 0 <= k < 3 && k != i ==> Sweep(p, mx, my).sliders[k] == p.sliders[k]
  {
    var p0 := SliderStep(p, 0, mx, my);
    var p1 := SliderStep(p0, 1, mx, my);
    assert p0.sliders[1].rect == p.sliders[1].rect;
    assert p1.sliders[2].rect == p.sliders[2].rect;
  }

  /** `updateSliders` (lines 251-267): a button press, or a motion with the left button held, sweeps
      the sliders; every other event leaves the panel alone. */
  function UpdateSliders(p: Panel, e: Event): (r: Panel)
    requires Shaped(p)
    ensures Shaped(r)
    ensures SameLayout(r.sliders, p.sliders)
    ensures e.OtherEvent? || (e.MouseMotion? && !e.leftHeld) ==> r == p
  {
    match e
    case MouseButtonDown(x, y) => Sweep(p, x, y)
    case MouseMotion(x, y, held) => if held then Sweep(p, x, y) else p
    case OtherEvent => p
  }

  /** The panel's invariant against a layout: the sliders keep the layout's rectangles and ranges,
      every value lies in its range, and the parameters agree with the slider values. */
  predicate Consistent(p: Panel, layout: seq<Slider>) {
    && |layout| == 3 && |p.sliders| == 3
    && (forall k :: 0 <= k < 3 ==>
          && p.sliders[k].rect == layout[k].rect && p.sliders[k].rect.w > 0
          && p.sliders[k].min == layout[k].min && p.sliders[k].max == layout[k].max
          && p.sliders[k].min <= p.sliders[k].value <= p.sliders[k].max)
    && p.params.maxSpeed == p.sliders[0].value
    && p.params.damping == p.sliders[1].value
    && p.params.numElectrons == Trunc(p.sliders[2].value)
  }

  /** The panel as the program starts it: the layout's sliders and the default parameters. */
  function InitialPanel(layout: seq<Slider>): Panel {
    Panel(layout, DefaultParams)
  }

  /** Start-up satisfies the invariant, for the layout as written and for the corrected one. */
  lemma InitialConsistent(countMax: real)
    requires NumElectrons as real <= countMax
    ensures Consistent(InitialPanel(SliderLayout(countMax)), SliderLayout(countMax))
  {}

  /** A slider step keeps the invariant. */
  lemma SliderStepConsistent(p: Panel, layout: seq<Slider>, i: int, mx: int, my: int)
    requires Consistent(p, layout) && 0 <= i < 3
    ensures Consistent(SliderStep(p, i, mx, my), layout)
  {}

  /** `updateSliders` keeps the invariant, whatever the event. */
  lemma UpdateConsistent(p: Panel, layout: seq<Slider>, e: Event)
    requires Consistent(p, layout)
    ensures Consistent(UpdateSliders(p, e), layout)
  {
    if e.MouseButtonDown? || (e.MouseMotion? && e.leftHeld) {
      var p0 := SliderStep(p, 0, e.x, e.y);
      SliderStepConsistent(p, layout, 0, e.x, e.y);
      var p1 := SliderStep(p0, 1, e.x, e.y);
      SliderStepConsistent(p0, layout, 1, e.x, e.y);
      SliderStepConsistent(p1, layout, 2, e.x, e.y);
    }
  }

  /** The three slider rectangles are vertically apart: no pixel is on two of them. */
  lemma SlidersDisjoint(countMax: real, mx: int, my: int, i: int, j: int)
    requires 0 <= i < j < 3
    ensures !(IsMouseOverButton(mx, my, SliderLayout(countMax)[i].rect)
              && IsMouseOverButton(mx, my, SliderLayout(countMax)[j].rect))
  {}

  /** A press, or a motion with the left button held, on slider `i` of a panel that keeps the program's
      layout: slider `i` takes the value under the mouse, its parameter takes that value, and the other
      two sliders stay as they were. */
  lemma UpdateSlidersHit(p: Panel, countMax: real, e: Event, i: int)
    requires Consistent(p, SliderLayout(countMax))
    requires e.MouseButtonDown? || (e.MouseMotion? && e.leftHeld)
    requires 0 <= i < 3 && IsMouseOverButton(e.x, e.y, p.sliders[i].rect)
    ensures UpdateSliders(p, e).sliders[i] == p.sliders[i].(value := SliderValue(p.sliders[i], e.x))
    ensures UpdateSliders(p, e).params == SetParam(p.params, i, SliderValue(p.sliders[i], e.x))
    ensures forall k :: 0 <= k < 3 && k != i ==> UpdateSliders(p, e).sliders[k] == p.sliders[k]
  {
    forall k | 0 <= k < 3 && k != i
      ensures !IsMouseOverButton(e.x, e.y, p.sliders[k].rect)
    {
      if k < i { SlidersDisjoint(countMax, e.x, e.y, k, i); } else { SlidersDisjoint(countMax, e.x, e.y, i, k); }
    }
    SweepHit(p, i, e.x, e.y);
  }

  /** The number of parameters that differ between `a` and `b`. */
  function ChangedParams(a: Params, b: Params): (n: nat)
    ensures n <= 3
    ensures n == 0 <==> a == b
  {
    (if a.maxSpeed != b.maxSpeed then 1 else 0)
    + (if a.damping != b.damping then 1 else 0)
    + (if a.numElectrons != b.numElectrons then 1 else 0)
  }

  /** On the panel's layout, one event writes at most one parameter and at most one slider. */
  lemma AtMostOneParameter(p: Panel, countMax: real, e: Event)
    requires Consistent(p, SliderLayout(countMax))
    ensures ChangedParams(p.params, UpdateSliders(p, e).params) <= 1
    ensures forall i, j :: 0 <= i < j < 3 ==>
      UpdateSliders(p, e).sliders[i] == p.sliders[i] || UpdateSliders(p, e).sliders[j] == p.sliders[j]
  {
    if e.MouseButtonDown? || (e.MouseMotion? && e.leftHeld) {
      var layout := SliderLayout(countMax);
      forall i, j | 0 <= i < j < 3
        ensures !(IsMouseOverButton(e.x, e.y, layout[i].rect) && IsMouseOverButton(e.x, e.y, layout[j].rect))
      {
        SlidersDisjoint(countMax, e.x, e.y, i, j);
      }
    }
  }

  /** The parameters after a reset click, with the slider values put back to match (lines 280-285). */
  function ResetControls(p: Panel): (r: Panel)
    requires |p.sliders| == 3
    ensures |r.sliders| == 3
    ensures SameLayout(r.sliders, p.sliders)
  {
    Panel(
      [ p.sliders[0].(value := DefaultMaxSpeed),
        p.sliders[1].(value := DefaultDamping),
        p.sliders[2].(value := NumElectrons as real) ],
      DefaultParams)
  }

  /** After a reset the parameters are the defaults, and the invariant holds again. */
  lemma ResetConsistent(p: Panel, countMax: real)
    requires Consistent(p, SliderLayout(countMax)) && NumElectrons as real <= countMax
    ensures ResetControls(p).params == Params(8.0, 0.8, 200)
    ensures Consistent(ResetControls(p), SliderLayout(countMax))
  {}

  /** Under the invariant the electron count lies in the count slider's range, truncated: at least 50,
      so the division at line 56 is by a positive number, and at most `countMax`. */
  lemma CountInRange(p: Panel, countMax: real)
    requires Consistent(p, SliderLayout(countMax))
    ensures 50 <= p.params.numElectrons
    ensures p.params.numElectrons as real <= countMax
  {}

  /** A press on the right end of the count slider, starting from the panel as the program builds it,
      sets `numElectrons` to 500. */
  lemma CountSliderReaches500()
    ensures UpdateSliders(InitialPanel(InitializeSliders()), MouseButtonDown(995, 610)).params.numElectrons == 500
  {
    var p := InitialPanel(InitializeSliders());
    var s := p.sliders[2];
    assert IsMouseOverButton(995, 610, s.rect);
    assert SliderValue(s, 995) == 500.0;
  }
}

=== FILE: motion.dfy ===
/** Integration of one electron and the wrap-around at the arena edges
    (`moveParticles`, drift_velocity_sdl.c, lines 137-141). */
module Motion {
  import opened Numerics
  import opened Config
  import opened Particles

  /** `fmodf(v + bound, bound)`: the C code's way of folding a coordinate back into [0, bound).
      It succeeds as long as `v` is not further than one arena width below zero; otherwise the
      remainder keeps the sign of `v + bound` and the result stays negative. */
  function Wrap(v: real, bound: real): (r: real)
    requires bound > 0.0
    ensures -bound <= v ==> 0.0 <= r < bound
    ensures v < -bound ==> -bound < r <= 0.0
    ensures Congruent(r, v, bound)
  {
    var a := v + bound;
    var r := FMod(a, bound);
    ShiftBack(a, r, v, bound);
    r
  }

  lemma ShiftBack(a: real, r: real, v: real, b: real)
    requires b > 0.0 && a == v + b && IsIntegral((a - r) / b)
    ensures IsIntegral((r - v) / b)
  {
    var x := a - r;
    var y := r - v;
    var q1 := x / b;
    var q2 := y / b;
    DivMul(x, b, q1);
    DivMul(y, b, q2);
    var u := q1 + q2;
    var w := x + y;
    SumOfMultiples(q1, q2, b, x, y);
    CancelFactor(u, b, w);
    IntegralOfInt(1);
    IntegralSub(1.0, q1);
  }

  lemma SumOfMultiples(q1: real, q2: real, b: real, x: real, y: real)
    requires q1 * b == x && q2 * b == y
    ensures (q1 + q2) * b == x + y
  {}

  /** Two points of [0, bound) that differ by a whole number of `bound`s coincide. */
  lemma WrapUnique(r1: real, r2: real, v: real, bound: real)
    requires bound > 0.0
    requires 0.0 <= r1 < bound && 0.0 <= r2 < bound
    requires Congruent(r1, v, bound) && Congruent(r2, v, bound)
    ensures r1 == r2
  {
    var x1 := r1 - v;
    var x2 := r2 - v;
    var q1 := x1 / bound;
    var q2 := x2 / bound;
    var q := q1 - q2;
    DivMul(x1, bound, q1);
    DivMul(x2, bound, q2);
    IntegralSub(q1, q2);
    var d := r1 - r2;
    DiffOfMultiples(q1, q2, bound, x1, x2, d);
    SmallMultiple(q, bound, d);
  }

  lemma DiffOfMultiples(q1: real, q2: real, b: real, x1: real, x2: real, d: real)
    requires q1 * b == x1 && q2 * b == x2 && d == x1 - x2
    ensures (q1 - q2) * b == d
  {}

  /** A whole multiple of `b` strictly between `-b` and `b` is zero. */
  lemma SmallMultiple(q: real, b: real, d: real)
    requires b > 0.0 && IsIntegral(q) && q * b == d && -b < d < b
    ensures d == 0.0
  {
    if q <= -1.0 {
      BelowMinusOne(q, b);
    } else if q >= 1.0 {
      AboveOne(q, b);
    } else {
      IntegralSmall(q);
      ZeroTimes(q, b);
    }
  }

  lemma BelowMinusOne(q: real, b: real)
    requires q <= -1.0 && b > 0.0
    ensures q * b <= -b
  {}

  lemma AboveOne(q: real, b: real)
    requires q >= 1.0 && b > 0.0
    ensures q * b >= b
  {}

  /** A coordinate already inside the arena is left where it is. */
  lemma WrapFixesArena(v: real, bound: real)
    requires bound > 0.0 && 0.0 <= v < bound
    ensures Wrap(v, bound) == v
  {
    var r := Wrap(v, bound);
    ZeroTimes(0.0, bound);
    assert (v - v) / bound == 0.0;
    IntegralOfInt(0);
    WrapUnique(r, v, v, bound);
  }

  /** Wrapping twice is wrapping once, as long as the first wrap landed in the arena. */
  lemma WrapIdempotent(v: real, bound: real)
    requires bound > 0.0 && -bound <= v
    ensures Wrap(Wrap(v, bound), bound) == Wrap(v, bound)
  {
    WrapFixesArena(Wrap(v, bound), bound);
  }

  /** One step left of `-bound` shows the wrap failing: the result is still negative. */
  lemma WrapFarLeft()
    ensures Wrap(-801.0, SimWidth as real) == -1.0
  {}

  /** The electron's part of one iteration of `moveParticles` before its collisions:
      advance by the velocity, then wrap both coordinates. */
  function Integrate(p: Particle): (r: Particle)
    ensures r.vx == p.vx && r.vy == p.vy && r.radius == p.radius && r.color == p.color
    ensures -(SimWidth as real) <= p.x + p.vx ==> 0.0 <= r.x < SimWidth as real
    ensures -(SimHeight as real) <= p.y + p.vy ==> 0.0 <= r.y < SimHeight as real
    ensures Congruent(r.x, p.x + p.vx, SimWidth as real) && Congruent(r.y, p.y + p.vy, SimHeight as real)
  {
    p.(x := Wrap(p.x + p.vx, SimWidth as real), y := Wrap(p.y + p.vy, SimHeight as real))
  }

  /** The particle's centre lies in the arena. */
  predicate InArena(p: Particle) {
    0.0 <= p.x < SimWidth as real && 0.0 <= p.y < SimHeight as real
  }

  /** A particle in the arena whose velocity is less than one arena size per frame in each
      direction stays in the arena; a step of exactly zero leaves it in place. */
  lemma IntegrateKeepsArena(p: Particle)
    requires InArena(p)
    requires -(SimWidth as real) <= p.vx && -(SimHeight as real) <= p.vy
    ensures InArena(Integrate(p))
    ensures p.vx == 0.0 && p.vy == 0.0 ==> Integrate(p) == p
  {
    if p.vx == 0.0 && p.vy == 0.0 {
      WrapFixesArena(p.x, SimWidth as real);
      WrapFixesArena(p.y, SimHeight as real);
    }
  }
}

=== FILE: numerics.dfy ===
/** The few pieces of C numerics the simulation relies on, over unbounded reals:
    float-to-int truncation, `fmodf`, `fminf`/`fmaxf`, and `sqrt` given only
    through the relation it satisfies. */
module Numerics {

  /** The square of a real. */
  function Sq(x: real): real { x * x }

  function Abs(x: real): real { if x < 0.0 then -x else x }

  /** A real with no fractional part. */
  predicate IsIntegral(q: real) {
    q.Floor as real == q
  }

  /** `u` and `v` differ by a whole number of `b`s. */
  predicate Congruent(u: real, v: real, b: real)
    requires b > 0.0
  {
    IsIntegral((u - v) / b)
  }

  /** Whole numbers are integral, and sums, differences and negations keep them so. */
  lemma IntegralOfInt(n: int)
    ensures IsIntegral(n as real)
  {}

  lemma IntegralSub(p: real, q: real)
    requires IsIntegral(p) && IsIntegral(q)
    ensures IsIntegral(p - q)
  {
    IntegralOfInt(p.Floor - q.Floor);
  }

  /** The only integral value strictly between -1 and 1 is 0. */
  lemma IntegralSmall(q: real)
    requires IsIntegral(q) && -1.0 < q < 1.0
    ensures q == 0.0
  {}

  /** C's conversion of a float to an int: the fraction is dropped, rounding toward zero. */
  function Trunc(q: real): (k: int)
    ensures 0.0 <= q ==> 0 <= k && k as real <= q < k as real + 1.0
    ensures q < 0.0 ==> k <= 0 && k as real - 1.0 < q <= k as real
  {
    if q >= 0.0 then q.Floor else -((-q).Floor)
  }

  lemma ScaleMono(a: real, b: real, m: real)
    requires a <= b && m > 0.0
    ensures a * m <= b * m
  {}

  lemma ScaleStrict(a: real, b: real, m: real)
    requires a < b && m > 0.0
    ensures a * m < b * m
  {}

  lemma QuotientAbove(a: real, b: real, k: real)
    requires b > 0.0 && k <= a / b
    ensures k * b <= a
  {
    var q := a / b;
    assert q * b == a;
    ScaleMono(k, q, b);
  }

  lemma QuotientBelow(a: real, b: real, k: real)
    requires b > 0.0 && a / b <= k
    ensures a <= k * b
  {
    var q := a / b;
    assert q * b == a;
    ScaleMono(q, k, b);
  }

  lemma QuotientStrictBelow(a: real, b: real, k: real)
    requires b > 0.0 && a / b < k + 1.0
    ensures a < k * b + b
  {
    var q := a / b;
    var h := k + 1.0;
    assert q * b == a;
    assert h * b == k * b + b;
    ScaleStrict(q, h, b);
  }

  lemma QuotientStrictAbove(a: real, b: real, k: real)
    requires b > 0.0 && k - 1.0 < a / b
    ensures k * b - b < a
  {
    var q := a / b;
    var l := k - 1.0;
    assert q * b == a;
    assert l * b == k * b - b;
    ScaleStrict(l, q, b);
  }

  /** C's `fmod` for a positive divisor: the remainder keeps the sign of the dividend
      and differs from it by a whole number of divisors. */
  function FMod(a: real, b: real): (r: real)
    requires b > 0.0
    ensures 0.0 <= a ==> 0.0 <= r < b
    ensures a < 0.0 ==> -b < r <= 0.0
    ensures IsIntegral((a - r) / b)
  {
    var k := Trunc(a / b) as real;
    FModFacts(a, b, k);
    a - k * b
  }

  lemma FModFacts(a: real, b: real, k: real)
    requires b > 0.0 && k == Trunc(a / b) as real
    ensures 0.0 <= a ==> 0.0 <= a - k * b < b
    ensures a < 0.0 ==> -b < a - k * b <= 0.0
    ensures IsIntegral((a - (a - k * b)) / b)
  {
    if 0.0 <= a {
      assert 0.0 <= a - k * b < b by {
        QuotientAbove(a, b, k);
        QuotientStrictBelow(a, b, k);
      }
    } else {
      assert -b < a - k * b <= 0.0 by {
        QuotientStrictAbove(a, b, k);
        QuotientBelow(a, b, k);
      }
    }
    IntegralOfInt(Trunc(a / b));
    MultipleQuotient(a, b, k);
  }

  lemma MultipleQuotient(a: real, b: real, k: real)
    requires b > 0.0
    ensures (a - (a - k * b)) / b == k
  {}

  /** `fminf` and `fmaxf` on ordinary (non-NaN) values. */
  function Min(a: real, b: real): real { if a <= b then a else b }
  function Max(a: real, b: real): real { if a >= b then a else b }

  /** `fmaxf(lo, fminf(hi, v))`: pins `v` into `[lo, hi]`, leaving values already inside alone. */
  function Clamp(lo: real, hi: real, v: real): (r: real)
    ensures lo <= hi ==> lo <= r <= hi
    ensures lo <= v <= hi ==> r == v
    ensures lo <= hi && v < lo ==> r == lo
    ensures lo <= hi && hi < v ==> r == hi
  {
    Max(lo, Min(hi, v))
  }

  /** What the model knows of `sqrt`: on a nonnegative argument it is nonnegative and squares back. */
  ghost predicate IsSqrt(sqrt: real -> real) {
    forall x: real {:trigger sqrt(x)} :: 0.0 <= x ==> 0.0 <= sqrt(x) && sqrt(x) * sqrt(x) == x
  }

  /** Facts about products and squares, stated over plain variables so that each proof obligation stays small. */
  lemma MulPos(a: real, b: real)
    requires 0.0 < a && 0.0 < b
    ensures 0.0 < a * b
  {}

  lemma SqPos(d: real)
    requires d != 0.0
    ensures 0.0 < Sq(d)
  {
    if 0.0 < d {
      calc {
        Sq(d);
        d * d;
      >  { MulPos(d, d); }
        0.0;
      }
    } else {
      calc {
        Sq(d);
        (-d) * (-d);
      >  { MulPos(-d, -d); }
        0.0;
      }
    }
  }

  lemma SqNonneg(d: real)
    ensures 0.0 <= Sq(d)
  {
    if d != 0.0 { SqPos(d); }
  }

  lemma ZeroTimes(a: real, b: real)
    requires a == 0.0
    ensures a * b == 0.0
  {}

  lemma SqMul(a: real, b: real)
    ensures Sq(a * b) == Sq(a) * Sq(b)
  {}

  /** The quotient `q` of `a` by a nonzero `b` times `b` gives `a` back. */
  lemma DivMul(a: real, b: real, q: real)
    requires b != 0.0 && q == a / b
    ensures q * b == a
  {}

  /** A factor `u` that leaves a positive `m` unchanged is one. */
  lemma CancelFactor(u: real, m: real, w: real)
    requires 0.0 < m && u * m == w && w == m
    ensures u == 1.0
  {}
}

=== FILE: particles.dfy ===
/** The particle record and the two global particle arrays (drift_velocity_sdl.c, lines 24-28, 41-42). */
module Particles {

  /** An RGBA colour; electrons are drawn blue and ions red. */
  datatype Color = Color(r: int, g: int, b: int, a: int)

  const Blue: Color := Color(0, 0, 255, 255)
  const Red: Color := Color(255, 0, 0, 255)

  /** A disk in the arena: centre, velocity in pixels per frame, radius and colour.
      The C record stores the four kinematic fields as `float`; here they are reals. */
  datatype Particle = Particle(x: real, y: real, vx: real, vy: real, radius: int, color: Color)

  /** The `electrons` and `ions` arrays, as sequences. */
  datatype Store = Store(electrons: seq<Particle>, ions: seq<Particle>)
}

=== FILE: schedule.dfy ===
/** The order in which `moveParticles` (drift_velocity_sdl.c, lines 135-151) touches the
    particles, as a sequence of calls: for each active electron i in turn, integrate it, collide
    it with every ion, then with every later active electron. */
module Schedule {
  import opened Config

  /** A particle slot: an index into `electrons` or into `ions`. */
  datatype Slot = Electron(index: int) | Ion(index: int)

  /** One step of `moveParticles`: the integration of electron `i`, or one `handleCollision(p1, p2)`. */
  datatype Call = Integrate(i: int) | Collide(p1: Slot, p2: Slot)

  /** The electron whose iteration of the outer loop makes the call. */
  function Owner(c: Call): int {
    match c
    case Integrate(i) => i
    case Collide(p1, _) => p1.index
  }

  /** The inner loop over the ions (lines 143-145). */
  function IonCalls(i: int): (s: seq<Call>)
    ensures |s| == NumIons
    ensures forall j :: 0 <= j < |s| ==> s[j] == Collide(Electron(i), Ion(j))
  {
    seq(NumIons, j => Collide(Electron(i), Ion(j)))
  }

  /** The inner loop over the later electrons (lines 147-149). */
  function ElectronCalls(i: int, n: int): (s: seq<Call>)
    requires 0 <= i < n
    ensures |s| == n - i - 1
    ensures forall j :: 0 <= j < |s| ==> s[j] == Collide(Electron(i), Electron(i + 1 + j))
  {
    seq(n - i - 1, j => Collide(Electron(i), Electron(i + 1 + j)))
  }

  /** The loops of lines 143-145 and 147-149 build their call lists one call at a time. */
  lemma IonCallsSnoc(i: int, k: int)
    requires 0 <= k < NumIons
    ensures IonCalls(i)[..k + 1] == IonCalls(i)[..k] + [Collide(Electron(i), Ion(k))]
  {}

  lemma ElectronCallsSnoc(i: int, n: int, k: int)
    requires 0 <= i < n && 0 <= k < n - i - 1
    ensures ElectronCalls(i, n)[..k + 1] == ElectronCalls(i, n)[..k] + [Collide(Electron(i), Electron(i + 1 + k))]
  {}

  /** Everything iteration `i` of the outer loop does. */
  function Block(i: int, n: int): seq<Call>
    requires 0 <= i < n
  {
    [Integrate(i)] + IonCalls(i) + ElectronCalls(i, n)
  }

  /** The first `k` iterations of the outer loop. */
  function Prefix(k: nat, n: nat): (s: seq<Call>)
    requires k <= n
    ensures forall c :: c in s ==> 0 <= Owner(c) < k
    decreases k
  {
    if k == 0 then [] else Prefix(k - 1, n) + Block(k - 1, n)
  }

  /** All calls of one `moveParticles` with `numElectrons` = `n`. */
  function FrameCalls(n: nat): seq<Call> {
    Prefix(n, n)
  }

  /** The calls the loops make, described without the loops: every active electron is
      integrated, collides with every ion as `p1`, and with every later active electron as `p1`. */
  predicate Scheduled(c: Call, n: int) {
    match c
    case Integrate(i) => 0 <= i < n
    case Collide(Electron(i), Ion(j)) => 0 <= i < n && 0 <= j < NumIons
    case Collide(Electron(i), Electron(j)) => 0 <= i < j < n
    case Collide(Ion(_), _) => false
  }

  lemma BlockMembers(i: int, n: int, c: Call)
    requires 0 <= i < n
    ensures c in Block(i, n) <==> Owner(c) == i && Scheduled(c, n)
  {
    var b := Block(i, n);
    if Owner(c) == i && Scheduled(c, n) {
      match c
      case Integrate(_) =>
        assert b[0] == c;
      case Collide(Electron(_), Ion(j)) =>
        assert b[1 + j] == c;
      case Collide(Electron(_), Electron(j)) =>
        assert b[1 + NumIons + (j - i - 1)] == c;
    }
  }

  lemma {:induction false} PrefixMembers(k: nat, n: nat, c: Call)
    requires k <= n
    ensures c in Prefix(k, n) <==> Owner(c) < k && Scheduled(c, n)
    decreases k
  {
    if k > 0 {
      PrefixMembers(k - 1, n, c);
      BlockMembers(k - 1, n, c);
    }
  }

  /** The calls are exactly the ones `Scheduled` describes. */
  lemma ScheduleMembers(n: nat, c: Call)
    ensures c in FrameCalls(n) <==> Scheduled(c, n)
  {
    PrefixMembers(n, n, c);
  }

  /** No call is made twice. */
  predicate NoDuplicates(s: seq<Call>) {
    forall p, q :: 0 <= p < q < |s| ==> s[p] != s[q]
  }

  lemma BlockNoDuplicates(i: int, n: int)
    requires 0 <= i < n
    ensures NoDuplicates(Block(i, n))
  {
    var b := Block(i, n);
    forall p, q | 0 <= p < q < |b|
      ensures b[p] != b[q]
    {
      if 0 < p {
        if q <= NumIons {
          assert b[p] == Collide(Electron(i), Ion(p - 1)) && b[q] == Collide(Electron(i), Ion(q - 1));
        } else if p <= NumIons {
          assert b[p].p2.Ion? && b[q].p2.Electron?;
        } else {
          assert b[p] == Collide(Electron(i), Electron(i + 1 + (p - 1 - NumIons)));
          assert b[q] == Collide(Electron(i), Electron(i + 1 + (q - 1 - NumIons)));
        }
      }
    }
  }

  lemma {:induction false} PrefixNoDuplicates(k: nat, n: nat)
    requires k <= n
    ensures NoDuplicates(Prefix(k, n))
    decreases k
  {
    if k > 0 {
      PrefixNoDuplicates(k - 1, n);
      BlockNoDuplicates(k - 1, n);
      var a := Prefix(k - 1, n);
      var b := Block(k - 1, n);
      var s := a + b;
      forall p, q | 0 <= p < q < |s|
        ensures s[p] != s[q]
      {
        if p < |a| <= q {
          assert s[p] in a;
          assert s[q] == b[q - |a|];
          BlockMembers(k - 1, n, s[q]);
        } else if |a| <= p {
          assert s[p] == b[p - |a|] && s[q] == b[q - |a|];
        }
      }
    }
  }

  /** Each electron pair, each (electron, ion) pair and each integration happens exactly once. */
  lemma ScheduleNoDuplicates(n: nat)
    ensures NoDuplicates(FrameCalls(n))
  {
    PrefixNoDuplicates(n, n);
  }

  /** The outer loop runs over the electrons in index order. */
  predicate OwnersSorted(s: seq<Call>) {
    forall p, q :: 0 <= p < q < |s| ==> Owner(s[p]) <= Owner(s[q])
  }

  /** Within one iteration, the integration comes before the collisions. */
  predicate IntegrationsLead(s: seq<Call>) {
    forall q :: 0 < q < |s| && s[q].Integrate? ==> Owner(s[q - 1]) < Owner(s[q])
  }

  lemma {:induction false} PrefixOrdered(k: nat, n: nat)
    requires k <= n
    ensures OwnersSorted(Prefix(k, n)) && IntegrationsLead(Prefix(k, n))
    decreases k
  {
    if k > 0 {
      PrefixOrdered(k - 1, n);
      var a := Prefix(k - 1, n);
      var b := Block(k - 1, n);
      var s := a + b;
      forall p | 0 <= p < |b|
        ensures Owner(b[p]) == k - 1
      {
        BlockMembers(k - 1, n, b[p]);
      }
      forall p, q | 0 <= p < q < |s|
        ensures Owner(s[p]) <= Owner(s[q])
      {
        if q < |a| {
        } else if p < |a| {
          assert s[p] in a;
          assert s[q] == b[q - |a|];
        } else {
          assert s[p] == b[p - |a|] && s[q] == b[q - |a|];
        }
      }
      forall q | 0 < q < |s| && s[q].Integrate?
        ensures Owner(s[q - 1]) < Owner(s[q])
      {
        if q == |a| {
          assert s[q - 1] in a;
          assert s[q] == b[0];
        }
      }
    }
  }

  /** Electron i is integrated before any of the collisions it makes as `p1`. */
  lemma IntegratedBeforeOwnCollisions(n: nat, p: int, q: int)
    requires 0 <= p < |FrameCalls(n)| && 0 <= q < |FrameCalls(n)|
    requires FrameCalls(n)[q].Collide? && FrameCalls(n)[p] == Integrate(Owner(FrameCalls(n)[q]))
    ensures p < q
  {
    var s := FrameCalls(n);
    PrefixOrdered(n, n);
    if 0 < p {
      assert Owner(s[p - 1]) < Owner(s[p]);
    }
  }

  /** The later partner of an electron pair is integrated only after the pair has collided. */
  lemma PartnerIntegratedAfter(n: nat, p: int, q: int, i: int, j: int)
    requires 0 <= p < |FrameCalls(n)| && 0 <= q < |FrameCalls(n)|
    requires FrameCalls(n)[q] == Collide(Electron(i), Electron(j)) && FrameCalls(n)[p] == Integrate(j)
    ensures q < p
  {
    var s := FrameCalls(n);
    PrefixOrdered(n, n);
    ScheduleMembers(n, s[q]);
  }

  /** How many calls one `moveParticles` makes: n integrations, n * NumIons ion collisions and
      n * (n - 1) / 2 electron collisions. */
  lemma {:induction false} PrefixLength(k: nat, n: nat)
    requires k <= n
    ensures 2 * |Prefix(k, n)| == 2 * k * (1 + NumIons) + k * (2 * n - k - 1)
    decreases k
  {
    if k > 0 {
      PrefixLength(k - 1, n);
    }
  }

  lemma ScheduleLength(n: nat)
    ensures 2 * |FrameCalls(n)| == 2 * n * (1 + NumIons) + n * (n - 1)
  {
    PrefixLength(n, n);
  }
}

=== FILE: simulation.dfy ===
/** The program's global state and the transitions `main` drives it through
    (drift_velocity_sdl.c, lines 41-76, 274-288, 327-343): start-up, the two event handlers,
    one frame of motion, and the divisor of the average speed. */
module Simulation {
  import opened Numerics
  import opened Config
  import opened Particles
  import opened Motion
  import opened Controls
  import opened Schedule
  import opened Step

  /** Everything the event handlers and `moveParticles` change: the particle arrays and the panel. */
  datatype Sim = Sim(store: Store, panel: Panel)

  /** The number of `rand()` values one `initializeParticles` consumes: four per electron, two per ion. */
  const DrawsPerInit: int := 4 * NumElectrons + 2 * NumIons

  /** The values the next `DrawsPerInit` calls of `rand()` return, each in `[0, RAND_MAX]`. */
  predicate ValidDraws(rands: seq<int>) {
    |rands| == DrawsPerInit && forall k :: 0 <= k < |rands| ==> 0 <= rands[k] <= RandMax
  }

  /** `rand() % bound` stored in a float: a whole number in `[0, bound)` that differs from the draw
      by a multiple of `bound`, which makes it the one remainder of the draw. */
  function DrawCoordinate(r: int, bound: int): (x: real)
    requires 0 <= r && 0 < bound
    ensures IsIntegral(x) && 0.0 <= x < bound as real
    ensures Congruent(x, r as real, bound as real)
  {
    IntegralOfInt(r % bound);
    RemainderCongruent(r, bound);
    (r % bound) as real
  }

  lemma RemainderCongruent(r: int, bound: int)
    requires 0 <= r && 0 < bound
    ensures Congruent((r % bound) as real, r as real, bound as real)
  {
    var x := (r % bound) as real;
    IntegralOfInt(-(r / bound));
    assert x - r as real == (-(r / bound)) as real * bound as real;
    assert (x - r as real) / bound as real == (-(r / bound)) as real;
  }

  /** `((float)rand() / RAND_MAX - 0.5) * maxSpeed`: a speed within half of `maxSpeed` either way. */
  function DrawVelocity(r: int, maxSpeed: real): (v: real)
    requires 0 <= r <= RandMax
    ensures 0.0 <= maxSpeed ==> -0.5 * maxSpeed <= v <= 0.5 * maxSpeed
    ensures r == RandMax ==> v == 0.5 * maxSpeed
    ensures 0.0 < maxSpeed ==> (v / maxSpeed + 0.5) * RandMax as real == r as real
  {
    if 0.0 <= maxSpeed then
      DrawBounds(r, maxSpeed);
      DrawInverse(r, maxSpeed);
      (r as real / RandMax as real - 0.5) * maxSpeed
    else
      (r as real / RandMax as real - 0.5) * maxSpeed
  }

  /** The draw can be read back from the velocity: the map of lines 63-64 is invertible for `maxSpeed > 0`. */
  lemma DrawInverse(r: int, m: real)
    requires 0 <= r <= RandMax
    ensures 0.0 < m ==> ((r as real / RandMax as real - 0.5) * m / m + 0.5) * RandMax as real == r as real
  {
    if 0.0 < m {
      var b := RandMax as real;
      var q := r as real / b;
      DivMul(r as real, b, q);
      var u := q - 0.5;
      DivMul(u * m, m, (u * m) / m);
      assert (u * m) / m == u;
    }
  }

  lemma DrawBounds(r: int, m: real)
    requires 0 <= r <= RandMax && 0.0 <= m
    ensures -0.5 * m <= (r as real / RandMax as real - 0.5) * m <= 0.5 * m
  {
    var b := RandMax as real;
    var q := r as real / b;
    DivMul(r as real, b, q);
    assert 0.0 <= q by {
      if q < 0.0 { ScaleStrict(q, 0.0, b); }
    }
    assert q <= 1.0 by {
      if q > 1.0 { ScaleStrict(1.0, q, b); }
    }
    var u := q - 0.5;
    if 0.0 < m {
      ScaleMono(-0.5, u, m);
      ScaleMono(u, 0.5, m);
    }
  }

  /** A particle whose centre has whole coordinates inside the arena. */
  predicate Placed(p: Particle) {
    InArena(p) && IsIntegral(p.x) && IsIntegral(p.y)
  }

  /** Electron `i` of `initializeParticles` (lines 61-66): draws `4i` to `4i + 3` give x, y, vx, vy. */
  function NewElectron(rands: seq<int>, i: int, maxSpeed: real): (p: Particle)
    requires ValidDraws(rands) && 0 <= i < NumElectrons
    ensures Placed(p) && p.radius == ElectronRadius && p.color == Blue
    ensures 0.0 <= maxSpeed ==> Abs(p.vx) <= 0.5 * maxSpeed && Abs(p.vy) <= 0.5 * maxSpeed
  {
    Particle(
      DrawCoordinate(rands[4 * i], SimWidth), DrawCoordinate(rands[4 * i + 1], SimHeight),
      DrawVelocity(rands[4 * i + 2], maxSpeed), DrawVelocity(rands[4 * i + 3], maxSpeed),
      ElectronRadius, Blue)
  }

  /** Ion `j` of `initializeParticles` (lines 70-74): two draws after the electrons' give x and y. */
  function NewIon(rands: seq<int>, j: int): (p: Particle)
    requires ValidDraws(rands) && 0 <= j < NumIons
    ensures Placed(p) && p.vx == 0.0 && p.vy == 0.0 && p.radius == IonRadius && p.color == Red
  {
    var base := 4 * NumElectrons + 2 * j;
    Particle(DrawCoordinate(rands[base], SimWidth), DrawCoordinate(rands[base + 1], SimHeight), 0.0, 0.0, IonRadius, Red)
  }

  /** The property every particle `initializeParticles` makes has: the electrons are placed, blue and no
      faster than half of `maxSpeed` along each axis; the ions are placed, red and at rest. */
  predicate Initialized(st: Store, maxSpeed: real) {
    && |st.electrons| == NumElectrons && |st.ions| == NumIons
    && (forall i :: 0 <= i < NumElectrons ==>
          && Placed(st.electrons[i]) && st.electrons[i].radius == ElectronRadius && st.electrons[i].color == Blue
          && (0.0 <= maxSpeed ==> Abs(st.electrons[i].vx) <= 0.5 * maxSpeed && Abs(st.electrons[i].vy) <= 0.5 * maxSpeed))
    && (forall j :: 0 <= j < NumIons ==>
          && Placed(st.ions[j]) && st.ions[j].vx == 0.0 && st.ions[j].vy == 0.0
          && st.ions[j].radius == IonRadius && st.ions[j].color == Red)
  }

  /** `initializeParticles` (lines 59-76): all `NumElectrons` slots are filled, not only the active
      ones, with the speed scale `maxSpeed` has when it runs. */
  function InitializeParticles(maxSpeed: real, rands: seq<int>): (st: Store)
    requires ValidDraws(rands)
    ensures Initialized(st, maxSpeed)
  {
    Store(
      seq(NumElectrons, i requires 0 <= i < NumElectrons => NewElectron(rands, i, maxSpeed)),
      seq(NumIons, j requires 0 <= j < NumIons => NewIon(rands, j)))
  }

  /** The state `main` sets up before its loop (lines 47-49, 327-329), for a given slider layout. */
  function Startup(layout: seq<Slider>, rands: seq<int>): (s: Sim)
    requires ValidDraws(rands)
    ensures Initialized(s.store, DefaultMaxSpeed)
    ensures s.panel.params == Params(8.0, 0.8, 200)
  {
    Sim(InitializeParticles(DefaultMaxSpeed, rands), InitialPanel(layout))
  }

  /** A button press on the reset button. */
  predicate ResetClick(e: Event) {
    e.MouseButtonDown? && IsMouseOverButton(e.x, e.y, ResetButton)
  }

  /** `handleResetButton` (lines 274-288): a press on the button re-initialises the particles first,
      with the current `maxSpeed`, and only then restores the defaults and the slider values. */
  function HandleResetButton(s: Sim, e: Event, rands: seq<int>): (r: Sim)
    requires |s.panel.sliders| == 3 && ValidDraws(rands)
    ensures !ResetClick(e) ==> r == s
    ensures ResetClick(e) ==> Initialized(r.store, s.panel.params.maxSpeed)
    ensures ResetClick(e) ==> r.panel.params == Params(8.0, 0.8, 200)
    ensures SameLayout(r.panel.sliders, s.panel.sliders)
    ensures ResetClick(e) ==>
      (r.panel.sliders[0].value == 8.0 && r.panel.sliders[1].value == 0.8 && r.panel.sliders[2].value == 200.0)
  {
    if ResetClick(e) then
      Sim(InitializeParticles(s.panel.params.maxSpeed, rands), ResetControls(s.panel))
    else
      s
  }

  /** The velocities after a reset follow the speed scale from before it: with `maxSpeed` at 15 and
      every draw at `RAND_MAX`, the first electron moves at 7.5, not at half the default 8. */
  lemma ResetUsesPreviousMaxSpeed(s: Sim)
    requires |s.panel.sliders| == 3 && s.panel.params.maxSpeed == 15.0
    ensures HandleResetButton(s, MouseButtonDown(900, 665), seq(DrawsPerInit, _ => RandMax)).store.electrons[0].vx == 7.5
  {
    var rands := seq(DrawsPerInit, _ => RandMax);
    assert ResetClick(MouseButtonDown(900, 665));
    assert rands[2] == RandMax;
  }

  /** One pass of the event loop body (lines 339-340): the sliders first, then the reset button. */
  function HandleEvent(s: Sim, e: Event, rands: seq<int>): (r: Sim)
    requires Shaped(s.panel) && ValidDraws(rands)
    ensures SameLayout(r.panel.sliders, s.panel.sliders)
    ensures !ResetClick(e) ==> r.store == s.store
    ensures ResetClick(e) ==> r.panel.params == Params(8.0, 0.8, 200)
    ensures ResetClick(e) ==> Initialized(r.store, UpdateSliders(s.panel, e).params.maxSpeed)
  {
    HandleResetButton(s.(panel := UpdateSliders(s.panel, e)), e, rands)
  }

  /** The invariant of the event loop against a slider layout: full arrays and a consistent panel. */
  predicate Valid(s: Sim, layout: seq<Slider>) {
    |s.store.electrons| == NumElectrons && |s.store.ions| == NumIons && Consistent(s.panel, layout)
  }

  /** Start-up establishes the invariant. */
  lemma StartupValid(countMax: real, rands: seq<int>)
    requires ValidDraws(rands) && NumElectrons as real <= countMax
    ensures Valid(Startup(SliderLayout(countMax), rands), SliderLayout(countMax))
  {
    InitialConsistent(countMax);
  }

  /** Every event keeps the invariant, and with it `numElectrons` in `[50, countMax]`. */
  lemma EventKeepsValid(s: Sim, countMax: real, e: Event, rands: seq<int>)
    requires Valid(s, SliderLayout(countMax)) && NumElectrons as real <= countMax && ValidDraws(rands)
    ensures Valid(HandleEvent(s, e, rands), SliderLayout(countMax))
    ensures 50 <= HandleEvent(s, e, rands).panel.params.numElectrons
    ensures HandleEvent(s, e, rands).panel.params.numElectrons as real <= countMax
  {
    var s1 := s.(panel := UpdateSliders(s.panel, e));
    UpdateConsistent(s.panel, SliderLayout(countMax), e);
    if ResetClick(e) {
      ResetConsistent(s1.panel, countMax);
    }
    CountInRange(HandleEvent(s, e, rands).panel, countMax);
  }

  /** `calculateAverageVelocity` (lines 51-57) divides the summed speeds by `numElectrons`; the sum of
      square roots is given, and the result is the value that times `n` gives the sum back. */
  function AverageVelocity(total: real, n: int): (avg: real)
    requires n != 0
    ensures avg * n as real == total
  {
    DivMul(total, n as real, total / n as real);
    total / n as real
  }

  /** Under the invariant the divisor is at least 50, so the average is always defined. */
  lemma AverageDefined(s: Sim, countMax: real)
    requires Valid(s, SliderLayout(countMax))
    ensures s.panel.params.numElectrons >= 50
  {
    CountInRange(s.panel, countMax);
  }

  /** One frame of `moveParticles` on the state (line 343): the frame's calls for the current
      `numElectrons`, run with the current `collisionDamping`, for a count that fits the electron array. */
  method Tick(s: Sim, sqrt: real -> real) returns (r: Sim)
    requires IsSqrt(sqrt)
    requires |s.store.electrons| == NumElectrons && |s.store.ions| == NumIons
    requires 0 <= s.panel.params.numElectrons <= NumElectrons
    ensures AllFit(FrameCalls(s.panel.params.numElectrons), NumElectrons, NumIons)
    ensures r.store == Run(s.store, FrameCalls(s.panel.params.numElectrons), s.panel.params.damping, sqrt)
    ensures r.panel == s.panel
    ensures |r.store.electrons| == NumElectrons && |r.store.ions| == NumIons
    ensures forall i :: s.panel.params.numElectrons <= i < NumElectrons ==>
      r.store.electrons[i] == s.store.electrons[i]
  {
    var st, _ := MoveParticles(s.store, s.panel.params.numElectrons, s.panel.params.damping, sqrt);
    r := s.(store := st);
  }

  /** With the sliders as written, one press on the right end of the count slider after start-up sets
      `numElectrons` to 500, and the next frame would integrate electron 200, which has no slot. */
  lemma SliderOverrunsElectronArray(rands: seq<int>)
    requires ValidDraws(rands)
    ensures HandleEvent(Startup(InitializeSliders(), rands), MouseButtonDown(995, 610), rands).panel.params.numElectrons == 500
    ensures Integrate(NumElectrons) in FrameCalls(500)
    ensures !CallFits(Integrate(NumElectrons), NumElectrons, NumIons)
  {
    CountSliderReaches500();
    assert !ResetClick(MouseButtonDown(995, 610));
    ScheduleMembers(500, Integrate(NumElectrons));
  }

  /** With the count slider capped at `NumElectrons`, every event keeps the count in `[50, 200]`,
      so every call of the next frame fits the arrays. */
  lemma CorrectedStaysInBounds(s: Sim, e: Event, rands: seq<int>)
    requires Valid(s, CorrectedSliders()) && ValidDraws(rands)
    ensures Valid(HandleEvent(s, e, rands), CorrectedSliders())
    ensures 50 <= HandleEvent(s, e, rands).panel.params.numElectrons <= NumElectrons
    ensures AllFit(FrameCalls(HandleEvent(s, e, rands).panel.params.numElectrons), NumElectrons, NumIons)
  {
    EventKeepsValid(s, NumElectrons as real, e, rands);
    ScheduleFits(HandleEvent(s, e, rands).panel.params.numElectrons);
  }
}

=== FILE: step.dfy ===
/** One frame of `moveParticles` (drift_velocity_sdl.c, lines 135-151) on the particle store:
    the calls of the `Schedule` applied one after another, each to the state the previous one left. */
module Step {
  import opened Numerics
  import opened Config
  import opened Particles
  import opened Collision
  import opened Motion
  import opened Schedule

  /** The call reads and writes only array slots that exist: `ne` electron slots, `ni` ion slots.
      A collision of an electron with itself, or with an ion as `p1`, is never made. */
  predicate CallFits(c: Call, ne: int, ni: int) {
    match c
    case Integrate(i) => 0 <= i < ne
    case Collide(Electron(i), Ion(j)) => 0 <= i < ne && 0 <= j < ni
    case Collide(Electron(i), Electron(j)) => 0 <= i < ne && 0 <= j < ne && i != j
    case Collide(Ion(_), _) => false
  }

  /** The call reads or writes slot `s`. */
  predicate Mentions(c: Call, s: Slot) {
    match c
    case Integrate(i) => s == Electron(i)
    case Collide(p1, p2) => s == p1 || s == p2
  }

  /** No call of `cs` reads or writes slot `s`. */
  predicate Untouched(cs: seq<Call>, s: Slot) {
    forall c :: c in cs ==> !Mentions(c, s)
  }

  /** The effect of one call on the store. */
  function Apply(st: Store, c: Call, damping: real, sqrt: real -> real): (r: Store)
    requires IsSqrt(sqrt) && CallFits(c, |st.electrons|, |st.ions|)
    ensures |r.electrons| == |st.electrons| && |r.ions| == |st.ions|
    ensures forall i :: 0 <= i < |st.electrons| && !Mentions(c, Electron(i)) ==> r.electrons[i] == st.electrons[i]
    ensures forall j :: 0 <= j < |st.ions| && !Mentions(c, Ion(j)) ==> r.ions[j] == st.ions[j]
    ensures c.Integrate? ==> r.electrons[c.i] == Motion.Integrate(st.electrons[c.i])
    ensures c.Collide? && c.p2.Ion? ==>
      (r.electrons[c.p1.index], r.ions[c.p2.index])
        == CollidePair(st.electrons[c.p1.index], st.ions[c.p2.index], damping, sqrt)
    ensures c.Collide? && c.p2.Electron? ==>
      (r.electrons[c.p1.index], r.electrons[c.p2.index])
        == CollidePair(st.electrons[c.p1.index], st.electrons[c.p2.index], damping, sqrt)
  {
    match c
    case Integrate(i) =>
      st.(electrons := st.electrons[i := Motion.Integrate(st.electrons[i])])
    case Collide(Electron(i), Ion(j)) =>
      var pr := CollidePair(st.electrons[i], st.ions[j], damping, sqrt);
      Store(st.electrons[i := pr.0], st.ions[j := pr.1])
    case Collide(Electron(i), Electron(j)) =>
      var pr := CollidePair(st.electrons[i], st.electrons[j], damping, sqrt);
      st.(electrons := st.electrons[i := pr.0][j := pr.1])
  }

  /** Every call of `cs` fits a store of the given shape. */
  predicate AllFit(cs: seq<Call>, ne: int, ni: int) {
    forall c :: c in cs ==> CallFits(c, ne, ni)
  }

  /** The calls of `cs` applied in order. */
  function Run(st: Store, cs: seq<Call>, damping: real, sqrt: real -> real): (r: Store)
    requires IsSqrt(sqrt) && AllFit(cs, |st.electrons|, |st.ions|)
    ensures |r.electrons| == |st.electrons| && |r.ions| == |st.ions|
    decreases |cs|
  {
    if |cs| == 0 then st
    else
      var init := cs[..|cs| - 1];
      assert forall c :: c in init ==> c in cs;
      Apply(Run(st, init, damping, sqrt), cs[|cs| - 1], damping, sqrt)
  }

  /** Running one more call is applying it to the state the others leave. */
  lemma RunSnoc(st: Store, cs: seq<Call>, c: Call, damping: real, sqrt: real -> real)
    requires IsSqrt(sqrt) && AllFit(cs + [c], |st.electrons|, |st.ions|)
    ensures AllFit(cs, |st.electrons|, |st.ions|)
    ensures Run(st, cs + [c], damping, sqrt) == Apply(Run(st, cs, damping, sqrt), c, damping, sqrt)
  {
    assert (cs + [c])[..|cs|] == cs;
    assert forall d :: d in cs ==> d in cs + [c];
  }

  /** A slot no call of `cs` mentions keeps its particle. */
  lemma {:induction false} RunUntouched(st: Store, cs: seq<Call>, s: Slot, damping: real, sqrt: real -> real)
    requires IsSqrt(sqrt) && AllFit(cs, |st.electrons|, |st.ions|) && Untouched(cs, s)
    ensures s.Electron? && 0 <= s.index < |st.electrons| ==>
      Run(st, cs, damping, sqrt).electrons[s.index] == st.electrons[s.index]
    ensures s.Ion? && 0 <= s.index < |st.ions| ==>
      Run(st, cs, damping, sqrt).ions[s.index] == st.ions[s.index]
    decreases |cs|
  {
    if |cs| > 0 {
      var init := cs[..|cs| - 1];
      assert forall c :: c in init ==> c in cs;
      assert cs[|cs| - 1] in cs;
      RunUntouched(st, init, s, damping, sqrt);
    }
  }

  /** Running `a` and then `b` is running `a + b`. */
  lemma {:induction false} RunAppend(st: Store, a: seq<Call>, b: seq<Call>, damping: real, sqrt: real -> real)
    requires IsSqrt(sqrt) && AllFit(a + b, |st.electrons|, |st.ions|)
    ensures AllFit(a, |st.electrons|, |st.ions|)
    ensures AllFit(b, |st.electrons|, |st.ions|)
    ensures Run(st, a + b, damping, sqrt) == Run(Run(st, a, damping, sqrt), b, damping, sqrt)
    decreases |b|
  {
    assert forall d :: d in a ==> d in a + b;
    assert forall d :: d in b ==> d in a + b;
    if |b| == 0 {
      assert a + b == a;
    } else {
      var b' := b[..|b| - 1];
      var c := b[|b| - 1];
      assert b == b' + [c];
      assert a + b == (a + b') + [c];
      RunSnoc(st, a + b', c, damping, sqrt);
      RunAppend(st, a, b', damping, sqrt);
      RunSnoc(Run(st, a, damping, sqrt), b', c, damping, sqrt);
    }
  }

  /** Every call of a frame with at most `NumElectrons` active electrons fits the arrays. */
  lemma ScheduleFits(n: nat)
    requires n <= NumElectrons
    ensures AllFit(FrameCalls(n), NumElectrons, NumIons)
  {
    forall c | c in FrameCalls(n)
      ensures CallFits(c, NumElectrons, NumIons)
    {
      ScheduleMembers(n, c);
    }
  }

  /** Every call of the first `k` iterations fits the arrays. */
  lemma PrefixFits(k: nat, n: nat)
    requires k <= n <= NumElectrons
    ensures AllFit(Prefix(k, n), NumElectrons, NumIons)
  {
    forall c | c in Prefix(k, n)
      ensures CallFits(c, NumElectrons, NumIons)
    {
      PrefixMembers(k, n, c);
    }
  }

  /** Electrons at index `n` and above are not touched by a frame with `n` active electrons. */
  lemma InactiveUntouched(n: nat, i: int)
    requires n <= i
    ensures Untouched(FrameCalls(n), Electron(i))
  {
    forall c | c in FrameCalls(n)
      ensures !Mentions(c, Electron(i))
    {
      ScheduleMembers(n, c);
    }
  }

  /** Ions are never integrated: the only calls of a frame that read or write ion `j` are
      `handleCollision` with an electron as `p1` and ion `j` as `p2`. */
  lemma IonsOnlyCollide(n: nat, j: int)
    ensures forall c :: c in FrameCalls(n) && Mentions(c, Ion(j)) ==>
      c.Collide? && c.p1.Electron? && c.p2 == Ion(j)
  {
    forall c | c in FrameCalls(n) && Mentions(c, Ion(j))
      ensures c.Collide? && c.p1.Electron? && c.p2 == Ion(j)
    {
      ScheduleMembers(n, c);
    }
  }

  /** The loop over the ions (lines 143-145), for electron `i`. */
  method CollideWithIons(st: Store, i: int, damping: real, sqrt: real -> real) returns (r: Store, calls: seq<Call>)
    requires IsSqrt(sqrt)
    requires |st.electrons| == NumElectrons && |st.ions| == NumIons && 0 <= i < NumElectrons
    ensures calls == IonCalls(i)
    ensures AllFit(calls, NumElectrons, NumIons)
    ensures r == Run(st, calls, damping, sqrt)
  {
    r := st;
    calls := [];
    var j := 0;
    while j < NumIons
      invariant 0 <= j <= NumIons
      invariant calls == IonCalls(i)[..j]
      invariant AllFit(calls, NumElectrons, NumIons)
      invariant r == Run(st, calls, damping, sqrt)
    {
      var c := Collide(Electron(i), Ion(j));
      RunSnoc(st, calls, c, damping, sqrt);
      r := Apply(r, c, damping, sqrt);
      IonCallsSnoc(i, j);
      calls := calls + [c];
      j := j + 1;
    }
    assert IonCalls(i)[..NumIons] == IonCalls(i);
  }

  /** The loop over the later active electrons (lines 147-149), for electron `i`. */
  method CollideWithLater(st: Store, i: int, n: int, damping: real, sqrt: real -> real) returns (r: Store, calls: seq<Call>)
    requires IsSqrt(sqrt)
    requires |st.electrons| == NumElectrons && |st.ions| == NumIons && 0 <= i < n <= NumElectrons
    ensures calls == ElectronCalls(i, n)
    ensures AllFit(calls, NumElectrons, NumIons)
    ensures r == Run(st, calls, damping, sqrt)
  {
    r := st;
    calls := [];
    var j := i + 1;
    while j < n
      invariant i + 1 <= j <= n
      invariant calls == ElectronCalls(i, n)[..j - i - 1]
      invariant AllFit(calls, NumElectrons, NumIons)
      invariant r == Run(st, calls, damping, sqrt)
    {
      var c := Collide(Electron(i), Electron(j));
      RunSnoc(st, calls, c, damping, sqrt);
      r := Apply(r, c, damping, sqrt);
      ElectronCallsSnoc(i, n, j - i - 1);
      calls := calls + [c];
      j := j + 1;
    }
    assert ElectronCalls(i, n)[..n - i - 1] == ElectronCalls(i, n);
  }

  /** One iteration of the outer loop (lines 137-149): integrate electron `i`, then its collisions. */
  method Iteration(st: Store, i: int, n: int, damping: real, sqrt: real -> real) returns (r: Store, calls: seq<Call>)
    requires IsSqrt(sqrt)
    requires |st.electrons| == NumElectrons && |st.ions| == NumIons && 0 <= i < n <= NumElectrons
    ensures calls == Block(i, n)
    ensures AllFit(calls, NumElectrons, NumIons)
    ensures r == Run(st, calls, damping, sqrt)
  {
    var r0 := Apply(st, Integrate(i), damping, sqrt);
    var r1, ionCalls := CollideWithIons(r0, i, damping, sqrt);
    var r2, laterCalls := CollideWithLater(r1, i, n, damping, sqrt);
    var p1 := [Integrate(i)];
    var p2 := p1 + ionCalls;
    calls := p2 + laterCalls;
    assert forall c :: c in p2 ==> c in calls;
    assert forall c :: c in p1 ==> c in p2;
    assert AllFit(calls, NumElectrons, NumIons) by {
      forall c | c in calls
        ensures CallFits(c, NumElectrons, NumIons)
      {
        if c !in p2 { assert c in laterCalls; }
      }
    }
    RunSnoc(st, [], Integrate(i), damping, sqrt);
    assert [] + [Integrate(i)] == p1;
    RunAppend(st, p1, ionCalls, damping, sqrt);
    RunAppend(st, p2, laterCalls, damping, sqrt);
    r := r2;
  }

  /** `moveParticles`: the nested loops of lines 136-150 make exactly the calls of `FrameCalls(n)`,
      and the store they leave is the one `Run` describes. */
  method MoveParticles(st: Store, n: nat, damping: real, sqrt: real -> real) returns (r: Store, calls: seq<Call>)
    requires IsSqrt(sqrt)
    requires |st.electrons| == NumElectrons && |st.ions| == NumIons && n <= NumElectrons
    ensures calls == FrameCalls(n)
    ensures AllFit(calls, NumElectrons, NumIons)
    ensures r == Run(st, calls, damping, sqrt)
    ensures |r.electrons| == NumElectrons && |r.ions| == NumIons
    ensures forall i :: n <= i < NumElectrons ==> r.electrons[i] == st.electrons[i]
  {
    r := st;
    calls := [];
    var i := 0;
    while i < n
      invariant 0 <= i <= n
      invariant calls == Prefix(i, n)
      invariant AllFit(calls, NumElectrons, NumIons)
      invariant r == Run(st, calls, damping, sqrt)
    {
      var block;
      r, block := Iteration(r, i, n, damping, sqrt);
      PrefixFits(i + 1, n);
      RunAppend(st, calls, block, damping, sqrt);
      calls := calls + block;
      i := i + 1;
    }
    ScheduleFits(n);
    forall k | n <= k < NumElectrons
      ensures r.electrons[k] == st.electrons[k]
    {
      InactiveUntouched(n, k);
      RunUntouched(st, calls, Electron(k), damping, sqrt);
    }
  }
}
